=== FILE: README.md ===
# project-factory, modelled in Dafny

A model of the scaffolding core of `project-factory`:

- **Ignore list.** The ignore-pattern list of a template has three fixed defaults followed by the user's patterns. Its verdict runs through the list in order, and it stops at the first match when nothing is negated.
- **Template construction.** A template turns the files below its `template` directory into `copy` and `copy-inserted` entries. It also builds the insertion placeholder, orders the shells, and picks the hook script with its environment.
- **Install.** The installer copies or substitutes every entry into the install directory. It records the kept-set, deletes files outside that set, and runs the two hooks around all of this.
- **Configuration resolution.** There are two generations of it:
  - the array-based selection among several template arguments;
  - the directory router, which follows `routes` until it reaches template arguments.

## How the model is built

- **Paths** are absolute sequences of segments (`Paths.Path`).
  - `Paths.Resolve` is `path.resolve`. It skips empty and `.` segments, `..` goes up but never above the root, and an absolute string starts again from the root.
  - `Paths.Relative` is `path.relative`. It climbs with `..` to the common prefix and then descends.
  - `Paths.ResolveRelative` proves that `Resolve` undoes `Relative`: resolving the relative path from `from` to `to` against `from` gives `to`.
- **File system.** The file system is a value, `Installer.Fs`: file contents by path plus the set of directories.
- **Abstract inputs.** The following become parameters of the functions that use them:
  - directory listings;
  - existing hook scripts;
  - the loaded configuration files;
  - glob matching (`IgnorePatterns.Matcher`);
  - the user's answers to prompts. `Prompts.Select` returns the chosen index, or `None` on cancel. `Option<Vars>` stands for the answers of the template's prompt script.
- **Variables** are name/value pairs in the order a `for ... in` loop visits them.
- **Replacement.** JavaScript's `replace` and `replaceAll` with a string pattern are modelled exactly, including the `$` replacement patterns (`Text.Expand`). This covers `Text.ReplaceFirstJs` and `Text.ReplaceAllJs`. `Text.ReplaceFirst` and `Text.ReplaceAll` are the literal replacements, which the placeholder and the installer use (see Findings).
- **Modules.** Each module follows one source file:
  - `IgnorePatterns`: `src/private/IgnorePatternList.ts`
  - `Templates`: `src/Template.ts`
  - `Abstraction`: `src/abstraction.ts`
  - `Installer`: `src/install.ts`
  - `ArgsSelection`: `src/resolveTemplateConfig.ts`
  - `Routing`: `src/TemplateConfig.ts`

  `Wrappers`, `Text`, `PlainReplacement`, `Paths` and `Prompts` model the library behaviour the core relies on.

## Where the code and the specification differ

The model follows the code in each case.

- **Router prompting.** A router always prompts, even when it has a single route (`Routing.SingleRouteStillAsks`).
- **Empty routes.** There is no check for a router without routes. Such a router offers an empty prompt, and any answer is out of range (`NoSuchRoute`).
- **Sync pass.** After an unkept file is deleted, only its immediate parent directory is removed, and only when it is empty at that moment. Emptied ancestors above it stay (`Installer.SyncRemovesOnlyParent`). A directory still holding a subdirectory when its file is deleted also stays when the subdirectory is removed later (`Installer.SyncKeepsParentEmptiedLater`).
- **No configuration file.** A directory without a configuration file yields the empty arguments object `{}` as a leaf (`Routing.UnconfiguredDirectory`). Its missing `name` is modelled as the empty string.

## Model

| member | source | states |
|---|---|---|
| IgnorePatterns.ParsePattern | src/private/IgnorePatternList.ts:42-47 | a pattern is negated iff it starts with `!`; exactly that one `!` is removed and the rest is kept verbatim (round trip); it is absolute iff the remaining content is an absolute path |
| IgnorePatterns.NewPatternList | src/private/IgnorePatternList.ts:36-51 | the list is the three defaults followed by the parsed user patterns in order (defaults only for a null list); `hasNegations` holds iff some user pattern starts with `!`, and agrees with the stored patterns |
| IgnorePatterns.Test | src/private/IgnorePatternList.ts:53-69 | the loop with its early exit computes the reference verdict (last matching pattern decides, absolute patterns tested against the raw path and others against the path relative to the directory) |
| IgnorePatterns.NoHitKept | src/private/IgnorePatternList.ts:54-68 | a path no pattern matches is not ignored |
| IgnorePatterns.VerdictIsLastHit | src/private/IgnorePatternList.ts:57-66 | ignored iff some pattern matches and the last matching one is not negated |
| IgnorePatterns.FirstHitDecides | src/private/IgnorePatternList.ts:63-65 | without negated patterns the first match already decides, so breaking there agrees with the full scan |
| IgnorePatterns.DefaultsOnly | src/private/IgnorePatternList.ts:16-32 | with no user patterns exactly the paths matching a default pattern are ignored |
| Templates.ClassifyFile | src/Template.ts:66-77 | `copy-inserted` iff the path ends with the input extension; a copy targets the relative path; an input file's target plus the extension is the relative path |
| Templates.ClassifyFiles | src/Template.ts:64-80 | one entry per file, same order, each source path unchanged, no de-duplication |
| Templates.NewTemplate | src/Template.ts:59-100 | the template and script directories are `template` and `scripts` below the resolved directory (`.` by default); the files are the classification of every listed file by the input extension (`.in` by default); the shells are ordered by `prioritizeBashScripts` (false by default); defaults for insertion pattern, prompt script, submit callback, shells and script extensions |
| Templates.NewTemplateLocatesSources | src/Template.ts:60-79 | every listed file below the template directory is found again by resolving its entry's target (plus the input extension for an input file) against the template directory |
| Templates.BatchFirstByDefault | src/Template.ts:87-96 | unless bash scripts are prioritized, a template able to run both kinds tries the batch script first |
| Templates.Shells | src/Template.ts:87-96 | bash present iff bash can run, batch iff batch can run, no duplicates, bash first when both iff bash scripts are prioritized |
| Templates.Configure | src/Template.ts:124-134 | cancelling fails; otherwise the variables are the submit callback applied to the answers |
| Templates.ScriptPath | src/Template.ts:135-143 | a bash script path holds no backslash; a batch path is the resolved path unchanged |
| Templates.FirstShell | src/Template.ts:148-157 | the first shell in list order whose script exists, or none when no script exists |
| Templates.AddVars | src/Template.ts:167-168 | the keys are the fixed keys plus the variable names; a variable overrides a fixed entry with its last value; other entries are untouched |
| Templates.Environment | src/Template.ts:161-168 | keys `TEMPLATEDIR`, `SCRIPTDIR`, `INSTALLDIR` plus the variables; a fixed entry keeps its directory unless a variable of that name overrides it |
| Templates.ExecuteScript | src/Template.ts:144-177 | no run iff no shell's script exists; otherwise the first shell with a script, run in the install directory with the environment and that shell's program |
| Templates.SlashesForBackslashes | src/Template.ts:140 | replacing `\` by `/` leaves no backslash and changes nothing when there was none |
| Templates.InsertionPatternFirstDollar | src/Template.ts:121-123 | only the first `$` of the insertion pattern is replaced, by the variable name as it is, for every name |
| Templates.DefaultInsertionPatternWraps | src/abstraction.ts:6-13 | with the default pattern `<($)` every name becomes `<(` + name + `)` |
| Templates.InsertionPatternAsWrittenPlain | src/Template.ts:121-123 | for a name without `$`, the placeholder the code builds is the intended one |
| Templates.DollarNameExpanded | src/Template.ts:122 | the code builds `<($)` for the name `$&`, where `<($&)` is intended |
| Templates.SliceOffSuffix | src/Template.ts:73 | cutting the extension off and putting it back yields the path again |
| Templates.ExtensionOnRelativePath | src/Template.ts:67-70 | for a file below the template directory, the absolute path ends with the extension iff the relative path does |
| Templates.TargetLocatesSource | src/Template.ts:70-74 | resolving the target path (plus the extension for an input file) against the template directory gives back the source file |
| Templates.TargetIsRelative | src/abstraction.ts:36-40 | a target path is never absolute |
| Templates.EmptyExtensionInsertsAll | src/Template.ts:67-74 | with an empty extension every file is `copy-inserted` and keeps its relative path |
| Abstraction.Lookup | src/Template.ts:167-168 | a name has a value iff it is one of the variables' names |
| Installer.Step | src/install.ts:22-49 | the loop body for one entry (full list after the table) |
| Installer.SyncStep | src/install.ts:51-56 | one iteration of the sync loop: an unkept file is deleted and kept files stay; directories only go away, and only the deleted file's parent, when it is then empty |
| Installer.Prepared | src/install.ts:16 | creating the install directory changes no file; an existing directory changes nothing, and a missing one is added with its ancestors |
| Installer.WriteAll | src/install.ts:20-49 | the kept-set is exactly the resolved targets of all entries, skipped copies included; only file operations are logged; directories only grow |
| Installer.Sync | src/install.ts:50-57 | afterwards a file exists iff it existed and is kept or unlisted, with its content unchanged; a removed directory is the parent of a deleted file and is empty afterwards |
| Installer.SyncRemovesEmptiedParent | src/install.ts:51-56 | the directory of a deleted file that holds no subdirectory and ends up without files is removed |
| Installer.SyncKeepsParentEmptiedLater | src/install.ts:51-56 | a directory whose file is deleted while it still holds a subdirectory stays, even when that subdirectory is removed later in the pass |
| Installer.SyncLeavesOnlyKept | src/install.ts:50-53 | when the listing holds every file below the directory, only kept files remain there after the sync pass |
| Installer.PreambleThenFileOperations | src/abstraction.ts:19-32 | configuration, then the optional directory creation, then `onInstalling`, then only file operations, then `onInstalled` last, both hooks with the same directory and variables |
| Installer.Perform | src/install.ts:16-59 | it fails exactly when the copy loop fails, with a missing source (the sync pass never fails here, see Left out); every kept target keeps the content the copy loop wrote, and so does every unlisted file; no file is added by the sync pass; a file that no entry reads or writes and that is not listed keeps its original content; kept-set, hook order, and only kept files remaining below the directory after a complete listing |
| Installer.Install | src/install.ts:9-60 | cancel fails; with answers it succeeds exactly when the copy loop under the configured variables does, and otherwise fails with a missing source; the variables are the configured ones; the kept-set is the resolved targets; kept targets hold what the copy loop wrote and nothing else appears; unlisted untouched files keep their content; hooks bracket all file operations; after a complete listing no unkept file remains below the directory |
| Installer.InstalledLastWriteWins | src/install.ts:22-57 | in a finished install, a target shared by several entries holds the output of the last of them |
| Installer.SubstituteAppend | src/install.ts:40-44 | substitution processes the variables one at a time in iteration order |
| Installer.SubstituteInsertsVerbatim | src/install.ts:43 | a value is inserted literally wherever its placeholder stood (the text split at the placeholders, joined by the value) |
| Installer.SubstituteWithoutPlaceholders | src/install.ts:40-44 | text holding none of the variables' placeholders is left verbatim, placeholders of unknown names included |
| Installer.SubstituteSingle | src/install.ts:40-44 | one variable is one `replaceAll` of its placeholder |
| Installer.SubstituteDefaultPattern | src/install.ts:38-46 | `Hello <(NAME)!` with `NAME = Acme` becomes `Hello Acme!` |
| Installer.DollarValueExpanded | src/install.ts:43 | as written, a value `$$` is inserted as `$`; the literal substitution inserts `$$` |
| Installer.WriteAllAppend | src/install.ts:22-49 | the loop over a concatenation is the loop over each part in order |
| Installer.WriteAllFrame | src/install.ts:22-49 | files that no entry writes or reads keep their content |
| Installer.LastWriteWins | src/install.ts:22-46 | of entries sharing a target, the later one's output ends up there |
| Installer.LaterCopyOverrides | src/install.ts:30-36 | of two plain copies to one target, the second source's content ends up there |
| Installer.SyncRemovesOnlyParent | src/install.ts:54-56 | deleting a lone file removes its own empty directory but not the ancestors above it |
| ArgsSelection.Candidates | src/resolveTemplateConfig.ts:13-15 | a single arguments object is a one-element list; an array is taken as is |
| ArgsSelection.TemplatePrompt | src/resolveTemplateConfig.ts:29-36 | message `Select template:`, one choice per entry in order, titled by name with the index as value |
| ArgsSelection.Rebase | src/resolveTemplateConfig.ts:23 | without a directory argument the arguments are untouched; with one only `directory` changes |
| ArgsSelection.SelectArgs | src/resolveTemplateConfig.ts:5-42 | empty list fails with `No templates provided.` before any prompt; one entry is taken without prompting; several prompt once; cancel fails; an answer among the choices gives that entry, rebased; an answer outside them fails; a result is a rebased element of the list, the chosen one |
| ArgsSelection.RebaseAbsolute | src/resolveTemplateConfig.ts:23 | an absolute directory argument replaces the arguments' own directory |
| ArgsSelection.RebaseAbsoluteIdempotent | src/resolveTemplateConfig.ts:23 | rebasing twice on one absolute directory is rebasing once |
| ArgsSelection.RebaseRelative | src/resolveTemplateConfig.ts:23 | a relative directory argument of plain segments descends from the arguments' own directory, which is the working directory when unset |
| ArgsSelection.RebaseNormal | src/resolveTemplateConfig.ts:23 | the rebased directory is a normal absolute path |
| Prompts.IndexedChoices | src/TemplateConfig.ts:70-73 | one choice per title, in order, valued by position |
| Routing.FirstPresent | src/TemplateConfig.ts:47-55 | the first existing candidate, or none when none exists |
| Routing.ImportConfig | src/TemplateConfig.ts:44-57 | without any configuration file the config is `{}`; otherwise it is that of one of the configuration files |
| Routing.ImportIsFirstPresent | src/TemplateConfig.ts:44-57 | the configuration imported is that of the first candidate the search over the file names finds, and `{}` when it finds none |
| Routing.ImportFirstPresent | src/TemplateConfig.ts:28-32 | `template.js`, `template.cjs`, `template.mjs` take precedence in that order |
| Routing.ConfigPathsResolved | src/TemplateConfig.ts:48 | the candidate paths are the file names resolved against the directory |
| Routing.RoutePrompt | src/TemplateConfig.ts:66-74 | message defaults to `Select route:`; one choice per route in order, titled by its message or else its directory |
| Routing.Follow | src/TemplateConfig.ts:64-81 | a leaf directory resolves to itself; every success ends at a leaf |
| Routing.Localize | src/TemplateConfig.ts:40 | only `directory` changes: without one it becomes the directory itself, otherwise its value resolved against the directory |
| Routing.ResolveConfig | src/TemplateConfig.ts:35-43 | a leaf's directory is resolved against its own directory; every success is a leaf reached by the routing; it fails iff the routing does |
| Routing.CancelFails | src/TemplateConfig.ts:76 | cancelling the route prompt fails with `NoRouteChosen`, whose message is `No template was chosen.` |
| Routing.FollowRouterAnswered | src/TemplateConfig.ts:66-78 | a router that resolves had an answer naming one of its routes |
| Routing.FollowStep | src/TemplateConfig.ts:78-81 | the chosen route's directory, resolved against the router's, is resolved next |
| Routing.FollowFuelMonotone | src/TemplateConfig.ts:78-81 | more hops allowed do not change a successful resolution |
| Routing.SelfRouteDiverges | src/TemplateConfig.ts:66-81 | a user who picks the route back to the router's own directory each time the prompt is shown is prompted forever: resolution never ends |
| Routing.SingleRouteStillAsks | src/TemplateConfig.ts:64-76 | a router with one route still prompts, and cancelling fails |
| Routing.UnconfiguredDirectory | src/TemplateConfig.ts:35-57 | a directory without configuration files yields `{}` whose directory is that directory itself |
| Routing.LocalizeNormal | src/TemplateConfig.ts:40 | a leaf read from a normal directory is located at a normal path |
| Paths.ResolveRelative | src/Template.ts:70 | resolving the relative path from one normal path to another gives the other back |
| Paths.ResolveNormal | src/install.ts:13 | resolving against a normal path yields a normal path |
| Paths.ResolveFileName | src/TemplateConfig.ts:48 | resolving a plain file name appends it to the directory |
| Paths.ResolveDot | src/TemplateConfig.ts:40 | resolving `.` gives the directory itself |
| Text.ReplaceAllIsSplitJoin | src/install.ts:43 | literal `replaceAll` of a non-empty pattern is split followed by join |
| PlainReplacement.ReplaceAllJsPlain | src/install.ts:43 | JavaScript's `replaceAll` with a replacement holding no `$` is the literal replacement, for every search value, the empty one included |
| Installer.SubstituteAsWrittenPlain | src/install.ts:40-44 | when no variable name or value holds a `$`, the substitution as written installs the same text as the literal one |

The `Installer.Step` contract states:

- it fails iff the source is missing, unless it is a copy onto itself;
- a copy onto itself writes nothing;
- otherwise the target holds the copied or substituted source;
- a `copy` source is never deleted;
- a `copy-inserted` source is deleted iff its directory is the target's;
- nothing else changes;
- the target's directories exist afterwards.

## Left out

- Promise handling (`src/resolveTemplateConfig.ts:10-12`). A thenable configuration is awaited in the code; here configurations are plain values.
- Module loading (`src/TemplateConfig.ts:59-62`). The configuration files are a map from path to loaded configuration.
- Dynamic loading, the dependency sandbox and installation (`importModule`, `prepareExecutionContext`, `TemplateDeps`) are process and package-manager plumbing, not part of this model.
- The prompts library and `executePromptScript` are interactive. They are replaced by an answer parameter.
- `Template.create` (`src/Template.ts:106-120`) walks the directory and probes for a shell. `Templates.NewTemplate` takes the file list and both capabilities as parameters.
- Shells are never started. `Templates.ExecuteScript` returns the run it would start, with its script, program, working directory and environment.
- Directory walking, existence checks and the empty-directory check are file-system wrappers.
  - Listings are parameters.
  - The walk order and any duplicates in it are not interpreted.
  - `Installer.CompleteWalk` states what the sync guarantee needs of the listing.
- Directory creation (`src/install.ts:16,29`). The directories are created non-recursively, and at line 29 the `mkdir` is not awaited. The model creates every missing ancestor of the install directory and of each target directory.
- Only a missing source is modelled as a failure of the file system. Permission errors are not.
- `Installer.Install`: a failed install returns no file system. In the code a `copyFile` or `readFile` that throws (`src/install.ts:33,38`) leaves `onInstalling` run and the earlier entries written; the model does not describe that partial state.
- `Installer.Fs` holds file contents as text. The code copies bytes with `copyFile` (`src/install.ts:33`) but reads and writes input files as UTF-8 (`src/install.ts:38,46`), which replaces invalid byte sequences by U+FFFD. `Installer.SubstituteWithoutPlaceholders` ("left verbatim") therefore holds for valid UTF-8 text only.
- `ArgsSelection.Rebase` and `Routing.Localize` return new arguments. The code assigns `directory` on the caller's object (`src/resolveTemplateConfig.ts:23`, `src/TemplateConfig.ts:40`), so resolving the same object twice with a relative directory compounds the two resolutions; the model does not carry that shared object.
- Glob matching stays uninterpreted (`IgnorePatterns.Matcher`).
- Node's path functions.
  - They are modelled on POSIX segment paths. Windows separators and drive letters are not modelled.
  - The `relative(...).length < 0.5` checks are path equality.
- `IgnorePatterns.Test` requires the cached `hasNegations` to agree with the patterns. That is the invariant the constructor establishes, and no other code builds a list.
- `Templates.Configure` models the submit callback as a synchronous function of the answers.
- Variable values are strings. The `String(...)` conversion in the environment is the identity here.
- `Routing.SelfRouteDiverges`: `Prompts.Select` answers a prompt by its content alone, so a router prompt shown again gets the same answer. In the code (`src/TemplateConfig.ts:66,81`) a revisited router prompts afresh and the user may pick another route there; the model does not describe such a user, and the lemma speaks of the one who keeps picking the self-route.
- `Installer.Sync` never fails. In the code the listing (`src/private/readdir.ts:14-21`) yields a nested file twice, once from Node's recursive listing and once from the descent into its directory, and `stat`s each entry lazily. Once the sync pass has deleted a nested unkept file, or removed its directory (`src/install.ts:52,56`), the `stat` of the later entry throws, the install rejects and `onInstalled` does not run. `Installer.Perform` and `Installer.Install` therefore succeed in cases where the code fails after deleting stale files in a subdirectory.
- `ArgsSelection.SelectArgs` and `Routing.Follow`: an answer outside the offered choices fails with `NoSuchTemplate` / `NoSuchRoute`. The prompt library never returns one. The code would go on with `undefined`.
- `Routing.Follow`: `fuel` bounds the number of router hops. `OutOfFuel` stands for the unbounded recursion of a route cycle, which the code does not detect.
- `Templates.CreateInsertionPattern` is the corrected, literal insertion (see Findings); `Templates.InsertionPatternAsWritten` keeps the code's `replace`. The `RegExp` return type is never produced and is not modelled.
- `Installer.Perform` and `Installer.Install`: the hook scripts' effects on the file system are not modelled. A hook is an event that leaves `Installer.Fs` unchanged, so the content guarantees (kept targets hold the copy output, nothing new appears, untouched files keep their content) assume scripts that leave the tree alone. In the code, a listed file that `onInstalling` creates is deleted by the sync pass, and whatever `onInstalled` writes stays.
- `Abstraction.Vars` allows a name to appear twice, which a JavaScript object cannot. With a repeated name `Installer.Substitute` inserts the first value, because its `replaceAll` consumes the placeholder, while `Abstraction.Lookup`, `Templates.AddVars` and `Templates.Environment` take the last; the variables the code produces always have distinct names.

## Findings

| source | as written | input that shows it | evidently intended | confidence | as-written member | corrected member |
|---|---|---|---|---|---|---|
| src/install.ts:43 | `content.replaceAll(insertionPattern, variables[name])` passes the user's value as a replacement pattern, so `$$`, `$&`, `` $` `` and `$'` in a value are expanded | file text `<(X)`, variable `X` = `$$`: the output is `$` | the value is inserted literally | medium, not executed | Installer.SubstituteAsWritten (Installer.DollarValueExpanded) | Installer.Substitute (Installer.SubstituteInsertsVerbatim) |
| src/Template.ts:122 | `this._insertionPattern.replace('$', variableName)` passes the variable name as a replacement pattern, so `$$`, `$&`, `` $` `` and `$'` in a name are expanded | default pattern `<($)`, variable name `$&`: the placeholder is `<($)` instead of `<($&)` | the name is inserted literally, giving `<(` + name + `)` as documented at src/abstraction.ts:6-13 | medium, not executed | Templates.InsertionPatternAsWritten (Templates.DollarNameExpanded) | Templates.CreateInsertionPattern (Templates.DefaultInsertionPatternWraps) |

=== FILE: abstraction.dfy ===
/** The template interface the installer consumes: a classified file list,
    insertion placeholders, variables and the two install hooks. */
module Abstraction {
  import opened Wrappers
  import opened Paths

  /** `copy` copies a file as is; `copy-inserted` substitutes variables into it. */
  datatype Action = Copy | CopyInserted

  /** One file of a template: where it goes (relative to the install
      directory), where it comes from (absolute), and how it is installed. */
  datatype TemplateFile = TemplateFile(targetPath: string, sourcePath: Path, action: Action)

  /** The two lifecycle hooks around the file-system work of an install. */
  datatype Hook = OnInstalling | OnInstalled

  /** Variables as name/value pairs in the order a `for ... in` loop visits them. */
  type Vars = seq<(string, string)>

  function Names(vars: Vars): set<string> {
    set i | 0 <= i < |vars| :: vars[i].0
  }

  /** The value a variable ends up with: that of its last binding. */
  function Lookup(vars: Vars, name: string): (r: Option<string>)
    ensures r.Some? <==> name in Names(vars)
    decreases |vars|
  {
    if |vars| == 0 then None
    else if vars[|vars| - 1].0 == name then Some(vars[|vars| - 1].1)
    else
      var init := vars[..|vars| - 1];
      assert Names(vars) == Names(init) + {vars[|vars| - 1].0};
      Lookup(init, name)
  }
}

=== FILE: ignore_patterns.dfy ===
/** The ignore list of a template: three fixed patterns for the template's own
    configuration files, then the user's patterns in the order given. A path is
    tested against every pattern in turn with a running verdict; the scan stops
    at the first match when no pattern is negated. Glob matching itself is the
    `Matcher` parameter. */
module IgnorePatterns {
  import opened Wrappers
  import opened Text
  import opened Paths

  datatype Pattern = Pattern(content: string, negated: bool, absolute: bool)

  /** The parsed list; `hasNegations` is cached at construction. */
  datatype PatternList = PatternList(patterns: seq<Pattern>, hasNegations: bool)

  /** Glob matching of a subject string against a pattern (minimatch with
      dot files included and `!` not interpreted). */
  type Matcher = (string, string) -> bool

  const Negation: string := "!"

  const DefaultPatterns: seq<Pattern> := [
    Pattern("template.js", false, false),
    Pattern("template.[cm]js", false, false),
    Pattern("template.deps.json", false, false)
  ]

  /** One user pattern: a leading `!` negates it and is dropped; the pattern is
      absolute when what remains is an absolute path. */
  function ParsePattern(s: string): (p: Pattern)
    ensures p.negated <==> StartsWith(s, Negation)
    ensures (if p.negated then Negation + p.content else p.content) == s
    ensures p.absolute <==> IsAbsolute(p.content)
  {
    var negated := StartsWith(s, Negation);
    var content := if negated then s[|Negation|..] else s;
    Pattern(content, negated, IsAbsolute(content))
  }

  predicate HasNegated(ps: seq<Pattern>) {
    exists i :: 0 <= i < |ps| && ps[i].negated
  }

  /** The constructor. `None` stands for a null or undefined pattern list. */
  function NewPatternList(user: Option<seq<string>>): (l: PatternList)
    ensures |l.patterns| == |DefaultPatterns| + |user.GetOr([])|
    ensures l.patterns[..|DefaultPatterns|] == DefaultPatterns
    ensures forall i :: 0 <= i < |user.GetOr([])| ==>
      l.patterns[|DefaultPatterns| + i] == ParsePattern(user.GetOr([])[i])
    ensures l.hasNegations <==> exists i :: 0 <= i < |user.GetOr([])| && StartsWith(user.GetOr([])[i], Negation)
    ensures l.hasNegations == HasNegated(l.patterns)
  {
    var us := user.GetOr([]);
    var ps := DefaultPatterns + seq(|us|, i requires 0 <= i < |us| => ParsePattern(us[i]));
    assert forall i :: 0 <= i < |DefaultPatterns| ==> !ps[i].negated;
    assert forall i :: 0 <= i < |us| ==> ps[|DefaultPatterns| + i] == ParsePattern(us[i]);
    PatternList(ps, HasNegated(ps))
  }

  /** The string a pattern is matched against: the raw path for an absolute
      pattern, else the path relative to the directory. */
  function Subject(p: Pattern, path: Path, directory: Path): string {
    if p.absolute then Render(path) else Relative(directory, path)
  }

  predicate Hits(p: Pattern, path: Path, directory: Path, matches: Matcher) {
    matches(Subject(p, path, directory), p.content)
  }

  /** Reference verdict: the last matching pattern decides, and a path that no
      pattern matches is kept. */
  function Verdict(ps: seq<Pattern>, path: Path, directory: Path, matches: Matcher): bool
    decreases |ps|
  {
    if |ps| == 0 then false
    else if Hits(ps[|ps| - 1], path, directory, matches) then !ps[|ps| - 1].negated
    else Verdict(ps[..|ps| - 1], path, directory, matches)
  }

  /** `test`: whether `path`, found below `directory`, is ignored. */
  method Test(l: PatternList, path: Path, directory: Path, matches: Matcher) returns (ignore: bool)
    requires l.hasNegations == HasNegated(l.patterns)
    ensures ignore == Verdict(l.patterns, path, directory, matches)
  {
    var ps := l.patterns;
    ignore := false;
    var i := 0;
    while i < |ps|
      invariant 0 <= i <= |ps|
      invariant l.hasNegations ==> ignore == Verdict(ps[..i], path, directory, matches)
      invariant !l.hasNegations ==> !ignore && forall j :: 0 <= j < i ==> !Hits(ps[j], path, directory, matches)
    {
      assert ps[..i + 1][..i] == ps[..i];
      if !Hits(ps[i], path, directory, matches) {
        i := i + 1;
        continue;
      }
      ignore := !ps[i].negated;
      if !l.hasNegations {
        FirstHitDecides(ps, i, path, directory, matches);
        break;
      }
      i := i + 1;
    }
    if l.hasNegations {
      assert ps[..i] == ps;
    } else if i == |ps| {
      NoHitKept(ps, path, directory, matches);
    }
  }

  // ---------------------------------------------------------------------------
  // Lemmas

  /** A path that no pattern matches is not ignored. */
  lemma {:induction false} NoHitKept(ps: seq<Pattern>, path: Path, directory: Path, matches: Matcher)
    requires forall j :: 0 <= j < |ps| ==> !Hits(ps[j], path, directory, matches)
    ensures !Verdict(ps, path, directory, matches)
    decreases |ps|
  {
    if |ps| > 0 {
      NoHitKept(ps[..|ps| - 1], path, directory, matches);
    }
  }

  /** Pattern `i` matches and no later pattern does. */
  predicate LastHitAt(ps: seq<Pattern>, i: nat, path: Path, directory: Path, matches: Matcher)
    requires i < |ps|
  {
    Hits(ps[i], path, directory, matches) &&
    forall j :: i < j < |ps| ==> !Hits(ps[j], path, directory, matches)
  }

  /** Dropping a final pattern that does not match keeps every last match. */
  lemma LastHitDropNonHit(ps: seq<Pattern>, i: nat, path: Path, directory: Path, matches: Matcher)
    requires i < |ps| - 1 && !Hits(ps[|ps| - 1], path, directory, matches)
    ensures LastHitAt(ps, i, path, directory, matches) <==> LastHitAt(ps[..|ps| - 1], i, path, directory, matches)
  {
    var init := ps[..|ps| - 1];
    assert forall j :: 0 <= j < |init| ==> init[j] == ps[j];
  }

  /** The verdict is "ignored" exactly when some pattern matches and the last
      matching pattern is not negated. */
  lemma {:induction false} VerdictIsLastHit(ps: seq<Pattern>, path: Path, directory: Path, matches: Matcher)
    ensures Verdict(ps, path, directory, matches) <==>
      exists i :: 0 <= i < |ps| && LastHitAt(ps, i, path, directory, matches) && !ps[i].negated
    decreases |ps|
  {
    if |ps| > 0 {
      var n := |ps| - 1;
      var init := ps[..n];
      if Hits(ps[n], path, directory, matches) {
        assert LastHitAt(ps, n, path, directory, matches);
        assert forall i :: 0 <= i < n ==> !LastHitAt(ps, i, path, directory, matches);
      } else {
        VerdictIsLastHit(init, path, directory, matches);
        assert !LastHitAt(ps, n, path, directory, matches);
        forall i | 0 <= i < n
          ensures LastHitAt(ps, i, path, directory, matches) <==> LastHitAt(init, i, path, directory, matches)
        {
          LastHitDropNonHit(ps, i, path, directory, matches);
        }
        assert forall i :: 0 <= i < n ==> init[i] == ps[i];
      }
    }
  }

  /** Without negated patterns, the first match already settles the verdict:
      the early exit of `test` agrees with scanning the whole list. */
  lemma FirstHitDecides(ps: seq<Pattern>, i: nat, path: Path, directory: Path, matches: Matcher)
    requires i < |ps| && Hits(ps[i], path, directory, matches)
    requires !HasNegated(ps)
    ensures Verdict(ps, path, directory, matches)
  {
    var last := LastHitFrom(ps, i, path, directory, matches);
    VerdictIsLastHit(ps, path, directory, matches);
    assert LastHitAt(ps, last, path, directory, matches) && !ps[last].negated;
  }

  /** The index of the last matching pattern, given a matching one at `i`. */
  lemma {:induction false} LastHitFrom(ps: seq<Pattern>, i: nat, path: Path, directory: Path, matches: Matcher)
    returns (last: nat)
    requires i < |ps| && Hits(ps[i], path, directory, matches)
    ensures i <= last < |ps| && LastHitAt(ps, last, path, directory, matches)
    decreases |ps| - i
  {
    if exists k :: i < k < |ps| && Hits(ps[k], path, directory, matches) {
      var k :| i < k < |ps| && Hits(ps[k], path, directory, matches);
      last := LastHitFrom(ps, k, path, directory, matches);
    } else {
      last := i;
    }
  }

  /** With no user patterns, exactly the paths matching one of the default
      patterns are ignored. */
  lemma DefaultsOnly(user: Option<seq<string>>, path: Path, directory: Path, matches: Matcher)
    requires user.None? || user == Some([])
    ensures Verdict(NewPatternList(user).patterns, path, directory, matches) <==>
      exists i :: 0 <= i < |DefaultPatterns| && Hits(DefaultPatterns[i], path, directory, matches)
  {
    var ps := NewPatternList(user).patterns;
    assert ps == DefaultPatterns;
    if exists i :: 0 <= i < |ps| && Hits(ps[i], path, directory, matches) {
      var i :| 0 <= i < |ps| && Hits(ps[i], path, directory, matches);
      FirstHitDecides(ps, i, path, directory, matches);
    } else {
      NoHitKept(ps, path, directory, matches);
    }
  }
}

=== FILE: installer.dfy ===
/** `install`: the template's files are copied or substituted into the target
    directory in list order, every target is recorded in a kept-set, files of
    the directory outside the kept-set are then deleted, and the two hooks run
    before and after all of this. The file system is a value: file contents by
    path and the set of directories. */
module Installer {
  import opened Wrappers
  import opened Text
  import opened Paths
  import opened Abstraction
  import opened Templates
  import opened PlainReplacement

  datatype Fs = Fs(files: map<Path, string>, dirs: set<Path>)

  /** What an install does, in order. */
  datatype Event =
    | Configured(vars: Vars)
    | CreatedDirectory(path: Path)
    | HookRun(hook: Hook, directory: Path, vars: Vars, run: Option<ScriptRun>)
    | Copied(source: Path, target: Path)
    | Written(target: Path)
    | Deleted(path: Path)
    | RemovedDirectory(path: Path)
  {
    predicate IsFileOperation() {
      Copied? || Written? || Deleted? || RemovedDirectory?
    }
  }

  datatype InstallError = Cancelled | MissingSource(path: Path)

  /** The state after the copy loop: file system, kept-set and events so far. */
  datatype Progress = Progress(fs: Fs, kept: set<Path>, events: seq<Event>)

  /** The result of a finished install. */
  datatype Installed = Installed(fs: Fs, vars: Vars, kept: set<Path>, events: seq<Event>)

  /** The absolute path a template file is installed to. */
  function Target(directory: Path, f: TemplateFile): Path {
    Resolve(directory, f.targetPath)
  }

  /** The proper ancestors of a path, which exist once the path does. */
  function Ancestors(p: Path): set<Path> {
    set i | 0 <= i < |p| :: p[..i]
  }

  /** The placeholders of the variables substituted one variable at a time, in
      iteration order; each value is inserted literally. */
  function Substitute(content: string, insertionPattern: string, vars: Vars): string
    decreases |vars|
  {
    if |vars| == 0 then content
    else
      var placeholder := CreateInsertionPattern(insertionPattern, vars[0].0);
      Substitute(ReplaceAll(content, placeholder, vars[0].1), insertionPattern, vars[1..])
  }

  /** `Substitute` as the code evaluates it: `replace` expands `$` patterns in
      each name and `replaceAll` in each value. */
  function SubstituteAsWritten(content: string, insertionPattern: string, vars: Vars): string
    decreases |vars|
  {
    if |vars| == 0 then content
    else
      var placeholder := InsertionPatternAsWritten(insertionPattern, vars[0].0);
      SubstituteAsWritten(ReplaceAllJs(content, placeholder, vars[0].1), insertionPattern, vars[1..])
  }

  /** The content a template file installs: the source as is for `copy`, with
      the variables substituted for `copy-inserted`. */
  function Output(fs: Fs, t: Template, vars: Vars, f: TemplateFile): string
    requires f.sourcePath in fs.files
  {
    match f.action
    case Copy => fs.files[f.sourcePath]
    case CopyInserted => Substitute(fs.files[f.sourcePath], t.insertionPattern, vars)
  }

  /** One iteration of the copy loop. */
  function Step(fs: Fs, directory: Path, t: Template, vars: Vars, f: TemplateFile): (r: Result<(Fs, seq<Event>), InstallError>)
    ensures var target := Target(directory, f);
      r.Failure? <==> f.sourcePath !in fs.files && !(f.action == Copy && f.sourcePath == target)
    ensures r.Failure? ==> r.error == MissingSource(f.sourcePath)
    ensures r.Success? ==> forall p :: p != Target(directory, f) && (p != f.sourcePath || f.action == Copy) ==>
      (p in r.value.0.files <==> p in fs.files) && (p in fs.files ==> r.value.0.files[p] == fs.files[p])
    ensures r.Success? && f.sourcePath != Target(directory, f) ==>
      Target(directory, f) in r.value.0.files && r.value.0.files[Target(directory, f)] == Output(fs, t, vars, f)
    ensures f.action == Copy && f.sourcePath == Target(directory, f) ==>
      r.Success? && r.value.0.files == fs.files && r.value.1 == []
    ensures r.Success? && f.action == Copy ==>
      (f.sourcePath in r.value.0.files <==> f.sourcePath in fs.files)
    ensures r.Success? && f.action == CopyInserted ==>
      (f.sourcePath !in r.value.0.files <==> Dirname(f.sourcePath) == Dirname(Target(directory, f)))
    ensures r.Success? ==> fs.dirs + Ancestors(Target(directory, f)) == r.value.0.dirs
    ensures r.Success? ==> forall i :: 0 <= i < |r.value.1| ==> r.value.1[i].IsFileOperation()
  {
    var target := Target(directory, f);
    var fs1 := fs.(dirs := fs.dirs + Ancestors(target));
    if f.action == Copy && f.sourcePath == target then Success((fs1, []))
    else if f.sourcePath !in fs.files then Failure(MissingSource(f.sourcePath))
    else
      var fs2 := fs1.(files := fs1.files[target := Output(fs, t, vars, f)]);
      if f.action == Copy then Success((fs2, [Copied(f.sourcePath, target)]))
      else if Dirname(f.sourcePath) == Dirname(target) then
        Success((fs2.(files := fs2.files - {f.sourcePath}), [Written(target), Deleted(f.sourcePath)]))
      else Success((fs2, [Written(target)]))
  }

  /** The targets of a list of template files. */
  function Targets(directory: Path, files: seq<TemplateFile>): set<Path> {
    set i | 0 <= i < |files| :: Target(directory, files[i])
  }

  /** The copy loop over the template's files, in order. */
  function WriteAll(fs: Fs, directory: Path, t: Template, vars: Vars, files: seq<TemplateFile>): (r: Result<Progress, InstallError>)
    ensures r.Success? ==> r.value.kept == Targets(directory, files)
    ensures r.Failure? ==> r.error.MissingSource?
    ensures r.Success? ==> forall i :: 0 <= i < |r.value.events| ==> r.value.events[i].IsFileOperation()
    ensures r.Success? ==> fs.dirs <= r.value.fs.dirs
    decreases |files|
  {
    if |files| == 0 then Success(Progress(fs, {}, []))
    else
      var step :- Step(fs, directory, t, vars, files[0]);
      var rest :- WriteAll(step.0, directory, t, vars, files[1..]);
      assert Targets(directory, files) == {Target(directory, files[0])} + Targets(directory, files[1..]) by {
        forall p | p in Targets(directory, files)
          ensures p in {Target(directory, files[0])} + Targets(directory, files[1..])
        {
          var i :| 0 <= i < |files| && p == Target(directory, files[i]);
          if i > 0 {
            assert files[1..][i - 1] == files[i];
          }
        }
      }
      Success(Progress(rest.fs, {Target(directory, files[0])} + rest.kept, step.1 + rest.events))
  }

  /** Whether a directory has no entries. */
  predicate IsEmptyDir(fs: Fs, d: Path) {
    && (forall f | f in fs.files :: !(|f| > 0 && Dirname(f) == d))
    && (forall e | e in fs.dirs :: !(|e| > 0 && Dirname(e) == d))
  }

  /** One iteration of the sync loop: an unkept file is deleted, and then its
      parent directory if that is now empty. */
  function SyncStep(fs: Fs, kept: set<Path>, file: Path): (r: (Fs, seq<Event>))
    ensures r.0.files == if file in kept then fs.files else fs.files - {file}
    ensures r.0.dirs <= fs.dirs
    ensures forall d :: d in fs.dirs - r.0.dirs ==> d == Dirname(file) && IsEmptyDir(r.0, d)
  {
    if file in kept then (fs, [])
    else
      var fs1 := fs.(files := fs.files - {file});
      var parent := Dirname(file);
      if parent in fs1.dirs && IsEmptyDir(fs1, parent) then
        (fs1.(dirs := fs1.dirs - {parent}), [Deleted(file), RemovedDirectory(parent)])
      else (fs1, [Deleted(file)])
  }

  /** The parent directories of the unkept files of a listing. */
  function UnkeptParents(listing: seq<Path>, kept: set<Path>): set<Path> {
    set i | 0 <= i < |listing| && listing[i] !in kept :: Dirname(listing[i])
  }

  /** The sync loop over a listing of the install directory. */
  function Sync(fs: Fs, kept: set<Path>, listing: seq<Path>): (r: (Fs, seq<Event>))
    ensures forall p :: p in r.0.files <==> p in fs.files && (p in kept || p !in listing)
    ensures forall p :: p in r.0.files ==> r.0.files[p] == fs.files[p]
    ensures r.0.dirs <= fs.dirs
    ensures fs.dirs - r.0.dirs <= UnkeptParents(listing, kept)
    ensures forall d :: d in fs.dirs - r.0.dirs ==> IsEmptyDir(r.0, d)
    ensures forall i :: 0 <= i < |r.1| ==> r.1[i].IsFileOperation()
    decreases |listing|
  {
    if |listing| == 0 then (fs, [])
    else
      var step := SyncStep(fs, kept, listing[0]);
      var rest := Sync(step.0, kept, listing[1..]);
      assert UnkeptParents(listing, kept) ==
        (if listing[0] in kept then {} else {Dirname(listing[0])}) + UnkeptParents(listing[1..], kept) by {
        forall d | d in UnkeptParents(listing, kept)
          ensures d in (if listing[0] in kept then {} else {Dirname(listing[0])}) + UnkeptParents(listing[1..], kept)
        {
          var i :| 0 <= i < |listing| && listing[i] !in kept && d == Dirname(listing[i]);
          if i > 0 {
            assert listing[1..][i - 1] == listing[i];
          }
        }
      }
      forall d | d in fs.dirs - rest.0.dirs
        ensures IsEmptyDir(rest.0, d)
      {
        if d !in step.0.dirs {
          EmptyDirStaysEmpty(step.0, rest.0, d);
        }
      }
      (rest.0, step.1 + rest.1)
  }

  /** A directory without entries stays so when files and directories are
      only taken away. */
  lemma EmptyDirStaysEmpty(a: Fs, b: Fs, d: Path)
    requires IsEmptyDir(a, d)
    requires b.files.Keys <= a.files.Keys && b.dirs <= a.dirs
    ensures IsEmptyDir(b, d)
  {
  }

  /** The directory walk sees every file below the directory. */
  ghost predicate CompleteWalk(walk: Fs -> seq<Path>, directory: Path) {
    forall fs: Fs, p: Path :: p in fs.files && Under(p, directory) ==> p in walk(fs)
  }

  /** The events that precede the copy loop. */
  function Preamble(t: Template, directory: Path, vars: Vars, created: bool, scripts: set<string>): seq<Event> {
    [Configured(vars)]
    + (if created then [CreatedDirectory(directory)] else [])
    + [HookRun(OnInstalling, directory, vars, ExecuteScript(t, OnInstalling, directory, vars, scripts))]
  }

  /** The hooks bracket the install: the configured variables come first, the
      `onInstalling` hook runs before any file operation, every event between
      the hooks is a file operation, and the `onInstalled` hook runs last. */
  predicate HookOrder(ev: seq<Event>, t: Template, directory: Path, vars: Vars, scripts: set<string>) {
    && |ev| >= 3
    && ev[0] == Configured(vars)
    && ev[|ev| - 1] == HookRun(OnInstalled, directory, vars, ExecuteScript(t, OnInstalled, directory, vars, scripts))
    && exists k :: 0 < k < |ev| - 1
         && ev[k] == HookRun(OnInstalling, directory, vars, ExecuteScript(t, OnInstalling, directory, vars, scripts))
         && (forall j :: 0 <= j < k ==> !ev[j].IsFileOperation() && !ev[j].HookRun?)
         && (forall j :: k < j < |ev| - 1 ==> ev[j].IsFileOperation())
  }

  lemma PreambleThenFileOperations(t: Template, directory: Path, vars: Vars, created: bool, scripts: set<string>, ops: seq<Event>)
    requires forall i :: 0 <= i < |ops| ==> ops[i].IsFileOperation()
    ensures HookOrder(Preamble(t, directory, vars, created, scripts) + ops
      + [HookRun(OnInstalled, directory, vars, ExecuteScript(t, OnInstalled, directory, vars, scripts))], t, directory, vars, scripts)
  {
    var before := Preamble(t, directory, vars, created, scripts);
    var ev := before + ops + [HookRun(OnInstalled, directory, vars, ExecuteScript(t, OnInstalled, directory, vars, scripts))];
    var k := |before| - 1;
    assert ev[k] == before[k];
    assert forall j :: 0 <= j < k ==> ev[j] == before[j];
    assert forall j :: k < j < |ev| - 1 ==> ev[j] == ops[j - |before|];
  }

  /** The file system once the install directory exists. */
  function Prepared(fs: Fs, directory: Path): (r: Fs)
    ensures r.files == fs.files
    ensures directory in fs.dirs ==> r == fs
    ensures directory !in fs.dirs ==> r.dirs == fs.dirs + {directory} + Ancestors(directory)
  {
    if directory !in fs.dirs then fs.(dirs := fs.dirs + {directory} + Ancestors(directory)) else fs
  }

  /** The install once the variables are known. */
  function Perform(directory: Path, t: Template, vars: Vars, scripts: set<string>, fs: Fs, walk: Fs -> seq<Path>): (r: Result<Installed, InstallError>)
    ensures r.Success? <==> WriteAll(Prepared(fs, directory), directory, t, vars, t.files).Success?
    ensures r.Failure? ==> r.error.MissingSource?
    ensures r.Success? ==> var w := WriteAll(Prepared(fs, directory), directory, t, vars, t.files).value;
      forall p :: p in w.fs.files && p in w.kept ==> p in r.value.fs.files && r.value.fs.files[p] == w.fs.files[p]
    ensures r.Success? ==> var w := WriteAll(Prepared(fs, directory), directory, t, vars, t.files).value;
      forall p :: p in w.fs.files && p !in walk(w.fs) ==> p in r.value.fs.files && r.value.fs.files[p] == w.fs.files[p]
    ensures r.Success? ==> var w := WriteAll(Prepared(fs, directory), directory, t, vars, t.files).value;
      forall p :: p in r.value.fs.files ==> p in w.fs.files && r.value.fs.files[p] == w.fs.files[p]
    ensures r.Success? ==> var w := WriteAll(Prepared(fs, directory), directory, t, vars, t.files).value;
      forall p :: p in fs.files && p !in walk(w.fs) && Untouched(directory, t.files, p) ==>
        p in r.value.fs.files && r.value.fs.files[p] == fs.files[p]
    ensures r.Success? ==> r.value.vars == vars
    ensures r.Success? ==> r.value.kept == Targets(directory, t.files)
    ensures r.Success? ==> HookOrder(r.value.events, t, directory, vars, scripts)
    ensures r.Success? && CompleteWalk(walk, directory) ==>
      forall p :: p in r.value.fs.files && Under(p, directory) ==> p in r.value.kept
  {
    var created := directory !in fs.dirs;
    var fs1 := Prepared(fs, directory);
    var before := Preamble(t, directory, vars, created, scripts);
    var written :- WriteAll(fs1, directory, t, vars, t.files);
    var synced := Sync(written.fs, written.kept, walk(written.fs));
    var after := [HookRun(OnInstalled, directory, vars, ExecuteScript(t, OnInstalled, directory, vars, scripts))];
    var listing := walk(written.fs);
    PreambleThenFileOperations(t, directory, vars, created, scripts, written.events + synced.1);
    SyncLeavesOnlyKept(written.fs, written.kept, listing, directory);
    WriteAllFrameAll(fs1, directory, t, vars, t.files);
    Success(Installed(synced.0, vars, written.kept, before + (written.events + synced.1) + after))
  }

  /** When the listing holds every file below the directory, the sync pass
      leaves only kept files there. */
  lemma SyncLeavesOnlyKept(fs: Fs, kept: set<Path>, listing: seq<Path>, directory: Path)
    ensures (forall p :: p in fs.files && Under(p, directory) ==> p in listing) ==>
      forall p :: p in Sync(fs, kept, listing).0.files && Under(p, directory) ==> p in kept
  {
  }

  /** `install`: `cwd` is the working directory, `answers` the reply to the
      template's prompt (`None` on cancel), `scripts` the hook script paths
      that exist, `walk` the recursive listing of a directory. */
  function Install(
    directoryArgument: string, cwd: Path, t: Template, answers: Option<Vars>,
    scripts: set<string>, fs: Fs, walk: Fs -> seq<Path>): (r: Result<Installed, InstallError>)
    ensures answers.None? ==> r == Failure(Cancelled)
    ensures answers.Some? ==> var directory := Resolve(cwd, directoryArgument);
      (r.Success? <==> WriteAll(Prepared(fs, directory), directory, t, t.onPromptSubmit(answers.value), t.files).Success?)
    ensures answers.Some? && r.Failure? ==> r.error.MissingSource?
    ensures r.Success? ==> answers.Some? && r.value.vars == t.onPromptSubmit(answers.value)
    ensures r.Success? ==> r.value.kept == Targets(Resolve(cwd, directoryArgument), t.files)
    ensures r.Success? ==> HookOrder(r.value.events, t, Resolve(cwd, directoryArgument), r.value.vars, scripts)
    ensures r.Success? && CompleteWalk(walk, Resolve(cwd, directoryArgument)) ==>
      forall p :: p in r.value.fs.files && Under(p, Resolve(cwd, directoryArgument)) ==> p in r.value.kept
    ensures r.Success? ==> var directory := Resolve(cwd, directoryArgument);
      var w := WriteAll(Prepared(fs, directory), directory, t, r.value.vars, t.files);
      && w.Success?
      && (forall p :: p in w.value.fs.files && p in w.value.kept ==>
            p in r.value.fs.files && r.value.fs.files[p] == w.value.fs.files[p])
      && (forall p :: p in r.value.fs.files ==> p in w.value.fs.files && r.value.fs.files[p] == w.value.fs.files[p])
    ensures r.Success? ==> var directory := Resolve(cwd, directoryArgument);
      var w := WriteAll(Prepared(fs, directory), directory, t, r.value.vars, t.files);
      forall p :: p in fs.files && p !in walk(w.value.fs) && Untouched(directory, t.files, p) ==>
        p in r.value.fs.files && r.value.fs.files[p] == fs.files[p]
  {
    var directory := Resolve(cwd, directoryArgument);
    match Configure(t, answers)
    case Failure(_) => Failure(Cancelled)
    case Success(vars) => Perform(directory, t, vars, scripts, fs, walk)
  }

  // ---------------------------------------------------------------------------
  // Lemmas

  /** Substituting two lists of variables one after the other is substituting
      their concatenation. */
  lemma {:induction false} SubstituteAppend(content: string, insertionPattern: string, a: Vars, b: Vars)
    ensures Substitute(content, insertionPattern, a + b)
      == Substitute(Substitute(content, insertionPattern, a), insertionPattern, b)
    decreases |a|
  {
    if |a| == 0 {
      assert a + b == b;
    } else {
      assert (a + b)[1..] == a[1..] + b;
      var placeholder := CreateInsertionPattern(insertionPattern, a[0].0);
      SubstituteAppend(ReplaceAll(content, placeholder, a[0].1), insertionPattern, a[1..], b);
    }
  }

  /** A single variable's value is inserted literally wherever its placeholder
      stood: the content split at the placeholders and joined by the value. */
  lemma SubstituteInsertsVerbatim(content: string, insertionPattern: string, name: string, value: string)
    requires |CreateInsertionPattern(insertionPattern, name)| > 0
    ensures Substitute(content, insertionPattern, [(name, value)])
      == JoinWith(SplitOn(content, CreateInsertionPattern(insertionPattern, name)), value)
  {
    var placeholder := CreateInsertionPattern(insertionPattern, name);
    ReplaceAllIsSplitJoin(content, placeholder, value);
  }

  /** A text holding none of the variables' placeholders is copied verbatim;
      placeholders of unknown names stay as they are. */
  lemma {:induction false} SubstituteWithoutPlaceholders(content: string, insertionPattern: string, vars: Vars)
    requires forall i :: 0 <= i < |vars| ==>
      |CreateInsertionPattern(insertionPattern, vars[i].0)| > 0 && !Occurs(content, CreateInsertionPattern(insertionPattern, vars[i].0))
    ensures Substitute(content, insertionPattern, vars) == content
    decreases |vars|
  {
    if |vars| > 0 {
      var placeholder := CreateInsertionPattern(insertionPattern, vars[0].0);
      ReplaceAllAbsent(content, placeholder, vars[0].1);
      assert forall i :: 0 <= i < |vars[1..]| ==> vars[1..][i] == vars[i + 1];
      SubstituteWithoutPlaceholders(content, insertionPattern, vars[1..]);
    }
  }

  /** With one variable, substitution is one literal `replaceAll`. */
  lemma SubstituteSingle(content: string, insertionPattern: string, name: string, value: string)
    ensures Substitute(content, insertionPattern, [(name, value)])
      == ReplaceAll(content, CreateInsertionPattern(insertionPattern, name), value)
  {
    var vars: Vars := [(name, value)];
    assert vars[1..] == [];
  }

  /** With the default insertion pattern `<(NAME)` becomes the value of `NAME`. */
  lemma SubstituteDefaultPattern()
    ensures Substitute("Hello <(NAME)!", DefaultInsertionPattern, [("NAME", "Acme")]) == "Hello Acme!"
  {
    var placeholder := CreateInsertionPattern(DefaultInsertionPattern, "NAME");
    SubstituteSingle("Hello <(NAME)!", DefaultInsertionPattern, "NAME", "Acme");
    DefaultInsertionPatternWraps("NAME");
    assert placeholder == "<(NAME)";
    ReplaceNameInGreeting();
    assert ReplaceAll("Hello <(NAME)!", placeholder, "Acme") == "Hello Acme!";
  }

  lemma ReplaceNameInGreeting()
    ensures ReplaceAll("Hello <(NAME)!", "<(NAME)", "Acme") == "Hello Acme!"
  {
    var s := "Hello <(NAME)!";
    GreetingPlaceholderAt();
    ReplaceAllIsSplitJoin(s, "<(NAME)", "Acme");
    SplitOnStep(s, "<(NAME)");
    assert s[..6] == "Hello ";
    assert s[13..] == "!";
    assert IndexOf("!", "<(NAME)", 0) == None;
    assert SplitOn("!", "<(NAME)") == ["!"];
    JoinWithCons("Hello ", ["!"], "Acme");
  }

  lemma GreetingPlaceholderAt()
    ensures IndexOf("Hello <(NAME)!", "<(NAME)", 0) == Some(6)
  {
    var s := "Hello <(NAME)!";
    forall j | 0 <= j < 6
      ensures !OccursAt(s, "<(NAME)", j)
    {
      assert s[j..j + 7][0] == s[j] != '<';
    }
    IndexOfIs(s, "<(NAME)", 0, 6);
  }

  /** The code as written hands each value to `replaceAll` as a replacement
      pattern, so a value `$$` is inserted as a single `$`; the literal
      substitution inserts it unchanged. */
  lemma DollarValueExpanded()
    ensures SubstituteAsWritten("<(X)", DefaultInsertionPattern, [("X", "$$")]) == "$"
    ensures Substitute("<(X)", DefaultInsertionPattern, [("X", "$$")]) == "$$"
  {
    var placeholder := CreateInsertionPattern(DefaultInsertionPattern, "X");
    DefaultInsertionPatternWraps("X");
    InsertionPatternAsWrittenPlain(DefaultInsertionPattern, "X");
    assert placeholder == "<(X)";
    SubstituteSingle("<(X)", DefaultInsertionPattern, "X", "$$");
    var vars: Vars := [("X", "$$")];
    assert vars[1..] == [];
    assert SubstituteAsWritten("<(X)", DefaultInsertionPattern, vars)
      == ReplaceAllJs("<(X)", placeholder, "$$");
    DollarReplacements();
  }

  lemma DollarReplacements()
    ensures ReplaceAllJs("<(X)", "<(X)", "$$") == "$"
    ensures ReplaceAll("<(X)", "<(X)", "$$") == "$$"
  {
    IndexOfIs("<(X)", "<(X)", 0, 0);
    assert IndexOf("<(X)", "<(X)", 4) == None;
    assert IndexOf("", "<(X)", 0) == None;
  }

  /** When no variable name or value holds a `$`, the code as written and the
      literal substitution install the same text. */
  lemma {:induction false} SubstituteAsWrittenPlain(content: string, insertionPattern: string, vars: Vars)
    requires forall i :: 0 <= i < |vars| ==> '$' !in vars[i].0 && '$' !in vars[i].1
    ensures SubstituteAsWritten(content, insertionPattern, vars) == Substitute(content, insertionPattern, vars)
    decreases |vars|
  {
    if |vars| > 0 {
      var name := vars[0].0;
      var value := vars[0].1;
      InsertionPatternAsWrittenPlain(insertionPattern, name);
      var placeholder := CreateInsertionPattern(insertionPattern, name);
      ReplaceAllJsPlain(content, placeholder, value);
      SubstituteAsWrittenPlain(ReplaceAll(content, placeholder, value), insertionPattern, vars[1..]);
    }
  }

  /** The copy loop over a concatenation is the loop over the first part
      followed by the loop over the second. */
  lemma {:induction false} WriteAllAppend(fs: Fs, directory: Path, t: Template, vars: Vars, a: seq<TemplateFile>, b: seq<TemplateFile>)
    ensures WriteAll(fs, directory, t, vars, a + b).Success? <==>
      WriteAll(fs, directory, t, vars, a).Success?
      && WriteAll(WriteAll(fs, directory, t, vars, a).value.fs, directory, t, vars, b).Success?
    ensures WriteAll(fs, directory, t, vars, a + b).Success? ==>
      WriteAll(fs, directory, t, vars, a + b).value.fs
        == WriteAll(WriteAll(fs, directory, t, vars, a).value.fs, directory, t, vars, b).value.fs
    decreases |a|
  {
    if |a| == 0 {
      assert a + b == b;
    } else {
      assert (a + b)[0] == a[0];
      assert (a + b)[1..] == a[1..] + b;
      var step := Step(fs, directory, t, vars, a[0]);
      if step.Success? {
        WriteAllAppend(step.value.0, directory, t, vars, a[1..], b);
      }
    }
  }

  /** Files the loop neither writes nor reads keep their content. */
  lemma {:induction false} WriteAllFrame(fs: Fs, directory: Path, t: Template, vars: Vars, files: seq<TemplateFile>, p: Path)
    requires WriteAll(fs, directory, t, vars, files).Success?
    requires forall i :: 0 <= i < |files| ==> Target(directory, files[i]) != p && files[i].sourcePath != p
    ensures var after := WriteAll(fs, directory, t, vars, files).value.fs;
      (p in after.files <==> p in fs.files) && (p in fs.files ==> after.files[p] == fs.files[p])
    decreases |files|
  {
    if |files| > 0 {
      var step := Step(fs, directory, t, vars, files[0]).value;
      assert forall i :: 0 <= i < |files[1..]| ==> files[1..][i] == files[i + 1];
      WriteAllFrame(step.0, directory, t, vars, files[1..], p);
    }
  }

  /** No template file targets or reads `p`. */
  predicate Untouched(directory: Path, files: seq<TemplateFile>, p: Path) {
    forall i :: 0 <= i < |files| ==> Target(directory, files[i]) != p && files[i].sourcePath != p
  }

  /** `WriteAllFrame` for every untouched path at once. */
  lemma WriteAllFrameAll(fs: Fs, directory: Path, t: Template, vars: Vars, files: seq<TemplateFile>)
    requires WriteAll(fs, directory, t, vars, files).Success?
    ensures var after := WriteAll(fs, directory, t, vars, files).value.fs;
      forall p :: Untouched(directory, files, p) && p in fs.files ==> p in after.files && after.files[p] == fs.files[p]
  {
    forall p | Untouched(directory, files, p) && p in fs.files
      ensures var after := WriteAll(fs, directory, t, vars, files).value.fs;
        p in after.files && after.files[p] == fs.files[p]
    {
      WriteAllFrame(fs, directory, t, vars, files, p);
    }
  }

  /** When several template files share a target, the last one written wins:
      the target holds what that file produced from the state it found, as
      long as no later file writes or reads the target. */
  lemma LastWriteWins(fs: Fs, directory: Path, t: Template, vars: Vars,
                      before: seq<TemplateFile>, f: TemplateFile, after: seq<TemplateFile>)
    requires WriteAll(fs, directory, t, vars, before + [f] + after).Success?
    requires f.sourcePath != Target(directory, f)
    requires forall i :: 0 <= i < |after| ==>
      Target(directory, after[i]) != Target(directory, f) && after[i].sourcePath != Target(directory, f)
    ensures WriteAll(fs, directory, t, vars, before).Success?
    ensures var mid := WriteAll(fs, directory, t, vars, before).value.fs;
      && f.sourcePath in mid.files
      && Target(directory, f) in WriteAll(fs, directory, t, vars, before + [f] + after).value.fs.files
      && WriteAll(fs, directory, t, vars, before + [f] + after).value.fs.files[Target(directory, f)]
           == Output(mid, t, vars, f)
  {
    assert before + [f] + after == before + ([f] + after);
    WriteAllAppend(fs, directory, t, vars, before, [f] + after);
    var mid := WriteAll(fs, directory, t, vars, before).value.fs;
    assert ([f] + after)[0] == f;
    assert ([f] + after)[1..] == after;
    var step := Step(mid, directory, t, vars, f).value;
    WriteAllFrame(step.0, directory, t, vars, after, Target(directory, f));
  }

  /** In a finished install, a target shared by several template files holds
      what the last of them produced, as long as no later file reads it. */
  lemma InstalledLastWriteWins(
    directoryArgument: string, cwd: Path, t: Template, answers: Option<Vars>,
    scripts: set<string>, fs: Fs, walk: Fs -> seq<Path>,
    before: seq<TemplateFile>, f: TemplateFile, after: seq<TemplateFile>)
    requires Install(directoryArgument, cwd, t, answers, scripts, fs, walk).Success?
    requires t.files == before + [f] + after
    requires var directory := Resolve(cwd, directoryArgument);
      && f.sourcePath != Target(directory, f)
      && forall i :: 0 <= i < |after| ==>
           Target(directory, after[i]) != Target(directory, f) && after[i].sourcePath != Target(directory, f)
    ensures var directory := Resolve(cwd, directoryArgument);
      var r := Install(directoryArgument, cwd, t, answers, scripts, fs, walk).value;
      var start := Prepared(fs, directory);
      && WriteAll(start, directory, t, r.vars, before).Success?
      && f.sourcePath in WriteAll(start, directory, t, r.vars, before).value.fs.files
      && Target(directory, f) in r.fs.files
      && r.fs.files[Target(directory, f)] == Output(WriteAll(start, directory, t, r.vars, before).value.fs, t, r.vars, f)
  {
    var directory := Resolve(cwd, directoryArgument);
    var r := Install(directoryArgument, cwd, t, answers, scripts, fs, walk).value;
    var start := Prepared(fs, directory);
    LastWriteWins(start, directory, t, r.vars, before, f, after);
    var w := WriteAll(start, directory, t, r.vars, t.files).value;
    assert t.files[|before|] == f;
    assert Target(directory, f) in w.kept;
  }

  /** Two plain copies to the same target: the later source's content ends up
      there. */
  lemma LaterCopyOverrides(fs: Fs, directory: Path, t: Template, vars: Vars, first: TemplateFile, second: TemplateFile)
    requires first.action == Copy && second.action == Copy
    requires Target(directory, first) == Target(directory, second)
    requires first.sourcePath != Target(directory, first) && second.sourcePath != Target(directory, second)
    requires WriteAll(fs, directory, t, vars, [first, second]).Success?
    ensures second.sourcePath in fs.files
    ensures Target(directory, second) in WriteAll(fs, directory, t, vars, [first, second]).value.fs.files
    ensures WriteAll(fs, directory, t, vars, [first, second]).value.fs.files[Target(directory, second)]
      == fs.files[second.sourcePath]
  {
    assert [first, second] == [first] + [second] + [];
    LastWriteWins(fs, directory, t, vars, [first], second, []);
    assert [first][1..] == [];
  }

  /** An unkept file's directory that holds no subdirectory and ends up
      without files is removed: the emptiness check after deleting the last
      unkept file of the directory already sees it empty. */
  lemma {:induction false} SyncRemovesEmptiedParent(fs: Fs, kept: set<Path>, listing: seq<Path>, d: Path)
    requires d in fs.dirs
    requires forall e :: e in fs.dirs && |e| > 0 ==> Dirname(e) != d
    requires exists i :: 0 <= i < |listing| && listing[i] !in kept && Dirname(listing[i]) == d
    requires IsEmptyDir(Sync(fs, kept, listing).0, d)
    ensures d !in Sync(fs, kept, listing).0.dirs
    decreases |listing|
  {
    var i :| 0 <= i < |listing| && listing[i] !in kept && Dirname(listing[i]) == d;
    var step := SyncStep(fs, kept, listing[0]);
    var rest := Sync(step.0, kept, listing[1..]);
    assert Sync(fs, kept, listing).0 == rest.0;
    if exists j :: 1 <= j < |listing| && listing[j] !in kept && Dirname(listing[j]) == d {
      var j :| 1 <= j < |listing| && listing[j] !in kept && Dirname(listing[j]) == d;
      if d in step.0.dirs {
        assert listing[1..][j - 1] == listing[j];
        SyncRemovesEmptiedParent(step.0, kept, listing[1..], d);
      } else {
        assert rest.0.dirs <= step.0.dirs;
      }
    } else {
      LastUnkeptRemovesParent(fs, kept, listing, d);
    }
  }

  /** The step deleting the last unkept file of a directory without
      subdirectories removes the directory when it ends up without files. */
  lemma LastUnkeptRemovesParent(fs: Fs, kept: set<Path>, listing: seq<Path>, d: Path)
    requires d in fs.dirs
    requires forall e :: e in fs.dirs && |e| > 0 ==> Dirname(e) != d
    requires |listing| > 0 && listing[0] !in kept && Dirname(listing[0]) == d
    requires forall j :: 1 <= j < |listing| ==> !(listing[j] !in kept && Dirname(listing[j]) == d)
    requires IsEmptyDir(Sync(SyncStep(fs, kept, listing[0]).0, kept, listing[1..]).0, d)
    ensures d !in SyncStep(fs, kept, listing[0]).0.dirs
  {
    var rest := Sync(SyncStep(fs, kept, listing[0]).0, kept, listing[1..]);
    var fs1 := fs.(files := fs.files - {listing[0]});
    forall f | f in fs1.files
      ensures !(|f| > 0 && Dirname(f) == d)
    {
      if f !in kept && f in listing[1..] {
        var j :| 0 <= j < |listing[1..]| && listing[1..][j] == f;
        assert listing[j + 1] == f;
      } else {
        assert f in rest.0.files;
      }
    }
    assert IsEmptyDir(fs1, d);
  }

  /** A directory whose only entry is a subdirectory survives when its own
      unkept file is listed before that subdirectory's file: it is not yet
      empty when checked, and nothing checks it again. */
  lemma SyncKeepsParentEmptiedLater()
    ensures var fs := Fs(map[["d", "x"] := "x", ["d", "e", "y"] := "y"], {[], ["d"], ["d", "e"]});
      var r := Sync(fs, {}, [["d", "x"], ["d", "e", "y"]]);
      && r.0.files == map[]
      && r.0.dirs == {[], ["d"]}
  {
    var x: Path := ["d", "x"];
    var y: Path := ["d", "e", "y"];
    var d: Path := ["d"];
    var e: Path := ["d", "e"];
    var fs := Fs(map[x := "x", y := "y"], {[], d, e});
    assert Dirname(x) == d && Dirname(y) == e && Dirname(e) == d;
    var fs1 := Fs(map[y := "y"], {[], d, e});
    assert fs.files - {x} == fs1.files;
    assert !IsEmptyDir(fs1, d) by {
      assert e in fs1.dirs;
    }
    assert SyncStep(fs, {}, x).0 == fs1;
    var fs2 := Fs(map[], {[], d});
    assert fs1.files - {y} == map[];
    assert IsEmptyDir(fs1.(files := map[]), e);
    assert SyncStep(fs1, {}, y).0 == fs2;
    var listing := [x, y];
    assert listing[1..] == [y];
    assert [y][1..] == [];
    assert Sync(fs2, {}, []).0 == fs2;
    assert Sync(fs1, {}, [y]).0 == fs2;
    assert Sync(fs, {}, listing).0 == fs2;
  }

  /** The sync pass removes an unkept file's own directory once it is empty,
      but not the directories above it. */
  lemma SyncRemovesOnlyParent()
    ensures var fs := Fs(map[["d", "a", "b", "x"] := "x", ["d", "k"] := "k"],
                         {[], ["d"], ["d", "a"], ["d", "a", "b"]});
      var r := Sync(fs, {["d", "k"]}, [["d", "a", "b", "x"], ["d", "k"]]);
      && r.0.files == map[["d", "k"] := "k"]
      && r.0.dirs == {[], ["d"], ["d", "a"]}
  {
    var fs := Fs(map[["d", "a", "b", "x"] := "x", ["d", "k"] := "k"], {[], ["d"], ["d", "a"], ["d", "a", "b"]});
    var fs1 := fs.(files := fs.files - {["d", "a", "b", "x"]});
    assert fs1.files == map[["d", "k"] := "k"];
    assert Dirname(["d", "a", "b", "x"]) == ["d", "a", "b"];
    assert IsEmptyDir(fs1, ["d", "a", "b"]);
  }
}

=== FILE: paths.dfy ===
/** POSIX paths as `node:path` treats them. An absolute path is the list of its
    segments below the root; `Resolve`, `Relative`, `Dirname` and `Render`
    model `path.resolve`, `path.relative`, `path.dirname` and the string form. */
module Paths {
  import opened Text

  /** An absolute path: the segments below the root, outermost first. */
  type Path = seq<string>

  const Separator: char := '/'

  /** A segment of a normalized path: not empty, not `.` or `..`, no separator. */
  predicate IsSegment(s: string) {
    s != "" && s != "." && s != ".." && Separator !in s
  }

  predicate Normal(p: Path) {
    forall i :: 0 <= i < |p| ==> IsSegment(p[i])
  }

  /** `path.isAbsolute` on POSIX. */
  predicate IsAbsolute(s: string) {
    |s| > 0 && s[0] == Separator
  }

  /** The string form of an absolute path; the root is `/`. */
  function Render(p: Path): string {
    [Separator] + JoinWith(p, [Separator])
  }

  /** `path.dirname`: the root is its own parent. */
  function Dirname(p: Path): Path {
    if |p| == 0 then p else p[..|p| - 1]
  }

  /** `p` lies strictly below `dir`. */
  predicate Under(p: Path, dir: Path) {
    |dir| < |p| && p[..|dir|] == dir
  }

  /** Applies relative segments one at a time: empty and `.` segments stay
      put, `..` goes up (never above the root), any other segment goes down. */
  function Walk(p: Path, segs: seq<string>): Path
    decreases |segs|
  {
    if |segs| == 0 then p
    else if segs[0] == "" || segs[0] == "." then Walk(p, segs[1..])
    else if segs[0] == ".." then Walk(Dirname(p), segs[1..])
    else Walk(p + [segs[0]], segs[1..])
  }

  /** `path.resolve(base, s)`: an absolute `s` starts again from the root. */
  function Resolve(base: Path, s: string): Path {
    Walk(if IsAbsolute(s) then [] else base, SplitOn(s, [Separator]))
  }

  /** The length of the longest common prefix of two paths. */
  function CommonPrefix(a: Path, b: Path): (k: nat)
    ensures k <= |a| && k <= |b| && a[..k] == b[..k]
    ensures k < |a| && k < |b| ==> a[k] != b[k]
    decreases |a|
  {
    if |a| == 0 || |b| == 0 || a[0] != b[0] then 0
    else 1 + CommonPrefix(a[1..], b[1..])
  }

  function Ups(n: nat): seq<string> {
    seq(n, _ => "..")
  }

  /** `path.relative(from, to)`: up to the common ancestor, then down to `to`;
      the empty string when both are the same path. */
  function Relative(from: Path, to: Path): string {
    var k := CommonPrefix(from, to);
    JoinWith(Ups(|from| - k) + to[k..], [Separator])
  }

  // ---------------------------------------------------------------------------
  // Lemmas

  lemma {:induction false} WalkAppend(p: Path, a: seq<string>, b: seq<string>)
    ensures Walk(p, a + b) == Walk(Walk(p, a), b)
    decreases |a|
  {
    if |a| > 0 {
      assert (a + b)[1..] == a[1..] + b;
      var q := if a[0] == "" || a[0] == "." then p else if a[0] == ".." then Dirname(p) else p + [a[0]];
      WalkAppend(q, a[1..], b);
      assert (a + b)[0] == a[0];
      assert Walk(p, a + b) == Walk(q, (a + b)[1..]);
      assert Walk(p, a) == Walk(q, a[1..]);
    } else {
      assert a + b == b;
    }
  }

  lemma {:induction false} WalkUps(p: Path, n: nat)
    requires n <= |p|
    ensures Walk(p, Ups(n)) == p[..|p| - n]
    decreases n
  {
    if n > 0 {
      assert Ups(n)[1..] == Ups(n - 1);
      WalkUps(Dirname(p), n - 1);
    }
  }

  lemma {:induction false} WalkSegments(p: Path, t: seq<string>)
    requires Normal(t)
    ensures Walk(p, t) == p + t
    decreases |t|
  {
    if |t| > 0 {
      WalkSegments(p + [t[0]], t[1..]);
      assert p + [t[0]] + t[1..] == p + t;
    }
  }

  lemma {:induction false} WalkKeepsNormal(p: Path, segs: seq<string>)
    requires Normal(p)
    requires forall k :: 0 <= k < |segs| ==> Separator !in segs[k]
    ensures Normal(Walk(p, segs))
    decreases |segs|
  {
    if |segs| > 0 {
      var q := if segs[0] == "" || segs[0] == "." then p else if segs[0] == ".." then Dirname(p) else p + [segs[0]];
      WalkKeepsNormal(q, segs[1..]);
    }
  }

  /** Resolving against a normalized path always gives a normalized path. */
  lemma ResolveNormal(base: Path, s: string)
    ensures Normal(base) ==> Normal(Resolve(base, s))
  {
    if Normal(base) {
      SplitOnCharFree(s, Separator);
      WalkKeepsNormal(if IsAbsolute(s) then [] else base, SplitOn(s, [Separator]));
    }
  }

  /** Resolving the string of relative segments walks those segments. */
  lemma ResolveJoined(base: Path, segs: seq<string>)
    requires |segs| >= 1
    requires forall i :: 0 <= i < |segs| ==> Separator !in segs[i] && segs[i] != ""
    ensures Resolve(base, JoinWith(segs, [Separator])) == Walk(base, segs)
  {
    JoinWithFirst(segs, [Separator]);
    assert !IsAbsolute(JoinWith(segs, [Separator]));
    SplitJoinChar(segs, Separator);
  }

  /** Resolving a plain file name appends it to the base. */
  lemma ResolveFileName(base: Path, name: string)
    requires IsSegment(name)
    ensures Resolve(base, name) == base + [name]
  {
    ResolveJoined(base, [name]);
    assert JoinWith([name], [Separator]) == name;
    assert [name][1..] == [];
  }

  /** Resolving the empty string gives the base back. */
  lemma ResolveEmpty(base: Path)
    ensures Resolve(base, "") == base
  {
    assert !OccursAt("", [Separator], 0);
    assert SplitOn("", [Separator]) == [""];
    assert Walk(base, [""]) == Walk(base, []);
  }

  /** Resolving `.` gives the base back. */
  lemma ResolveDot(base: Path)
    ensures Resolve(base, ".") == base
  {
    var dot := ".";
    assert dot[0..1] == [dot[0]] && dot[0] != Separator;
    assert !OccursAt(dot, [Separator], 0);
    assert !OccursAt(dot, [Separator], 1);
    assert IndexOf(dot, [Separator], 1).None?;
    assert IndexOf(dot, [Separator], 0).None?;
    assert SplitOn(dot, [Separator]) == [dot];
    assert Walk(base, ["."]) == Walk(base, []);
  }

  /** The relative path from `from` to `to`, resolved against `from`, leads back
      to `to`. */
  lemma ResolveRelative(from: Path, to: Path)
    requires Normal(from) && Normal(to)
    ensures Resolve(from, Relative(from, to)) == to
  {
    var k := CommonPrefix(from, to);
    var ups := Ups(|from| - k);
    var segs := ups + to[k..];
    if |segs| == 0 {
      assert to == to[..k] == from[..k] == from;
      ResolveEmpty(from);
    } else {
      assert forall i :: 0 <= i < |segs| ==> Separator !in segs[i] && segs[i] != "";
      ResolveJoined(from, segs);
      WalkAppend(from, ups, to[k..]);
      WalkUps(from, |from| - k);
      WalkSegments(from[..k], to[k..]);
      assert from[..k] + to[k..] == to;
    }
  }

  /** `path.relative` of a normalized target never yields an absolute path. */
  lemma RelativeIsRelative(from: Path, to: Path)
    requires Normal(to)
    ensures !IsAbsolute(Relative(from, to))
  {
    var k := CommonPrefix(from, to);
    var segs := Ups(|from| - k) + to[k..];
    if |segs| > 0 {
      JoinWithFirst(segs, [Separator]);
      assert segs[0] != "" && segs[0][0] != Separator;
    }
  }

  /** Below a directory, `path.relative` is the string of the remaining
      segments, and the full string form ends with it after a separator. */
  lemma RenderUnder(dir: Path, p: Path)
    requires Under(p, dir)
    ensures Relative(dir, p) == JoinWith(p[|dir|..], [Separator])
    ensures Render(p) == (if |dir| == 0 then "" else Render(dir)) + [Separator] + Relative(dir, p)
  {
    var k := CommonPrefix(dir, p);
    assert k == |dir|;
    assert Ups(0) + p[k..] == p[|dir|..];
    if |dir| > 0 {
      assert p == dir + p[|dir|..];
      JoinWithAppend(dir, p[|dir|..], [Separator]);
    }
  }
}

=== FILE: plain_replacement.dfy ===
/** JavaScript's `replaceAll` agrees with the literal replacement when the
    replacement text holds no `$`, so no replacement pattern is expanded. */
module PlainReplacement {
  import opened Wrappers
  import opened Text

  /** Searching a suffix finds what searching the whole text from the same
      offset finds, shifted by that offset. */
  lemma {:induction false} IndexOfShift(s: string, pat: string, from: nat, k: nat)
    requires from + k <= |s|
    ensures IndexOf(s[from..], pat, k).None? <==> IndexOf(s, pat, from + k).None?
    ensures IndexOf(s[from..], pat, k).Some? ==> IndexOf(s, pat, from + k).value == from + IndexOf(s[from..], pat, k).value
    decreases |s| - from - k
  {
    var t := s[from..];
    if from + k + |pat| <= |s| {
      assert t[k..k + |pat|] == s[from + k..from + k + |pat|];
    }
    assert OccursAt(t, pat, k) <==> OccursAt(s, pat, from + k);
    if !OccursAt(s, pat, from + k) && from + k < |s| {
      IndexOfShift(s, pat, from, k + 1);
    }
  }

  /** Without `$` in the replacement, JavaScript's `replaceAll` from `from`
      is the literal replacement of the rest of the text. */
  lemma {:induction false} ReplaceAllJsFromPlain(s: string, pat: string, rep: string, from: nat)
    requires from <= |s| && |pat| > 0 && '$' !in rep
    ensures ReplaceAllJsFrom(s, pat, rep, from) == ReplaceOccurrences(s[from..], pat, rep)
    decreases |s| - from
  {
    if IndexOf(s, pat, from).Some? {
      var next := IndexOf(s, pat, from).value + |pat|;
      JsStep(s, pat, rep, from);
      LiteralStep(s, pat, rep, from);
      ReplaceAllJsFromPlain(s, pat, rep, next);
    } else {
      LiteralAbsent(s, pat, rep, from);
    }
  }

  /** At the first occurrence from `from`, JavaScript's `replaceAll` emits the
      text before it and the replacement as it is, then goes on after it. */
  lemma JsStep(s: string, pat: string, rep: string, from: nat)
    requires from <= |s| && |pat| > 0 && '$' !in rep && IndexOf(s, pat, from).Some?
    ensures IndexOf(s, pat, from).value + |pat| <= |s|
    ensures ReplaceAllJsFrom(s, pat, rep, from)
      == s[from..IndexOf(s, pat, from).value] + rep + ReplaceAllJsFrom(s, pat, rep, IndexOf(s, pat, from).value + |pat|)
  {
    ExpandPlain(rep, s, IndexOf(s, pat, from).value, pat);
  }

  /** The literal replacement of the rest of the text steps over the same
      occurrence. */
  lemma LiteralStep(s: string, pat: string, rep: string, from: nat)
    requires from <= |s| && |pat| > 0 && IndexOf(s, pat, from).Some?
    ensures IndexOf(s, pat, from).value + |pat| <= |s|
    ensures ReplaceOccurrences(s[from..], pat, rep)
      == s[from..IndexOf(s, pat, from).value] + rep + ReplaceOccurrences(s[IndexOf(s, pat, from).value + |pat|..], pat, rep)
  {
    var p := IndexOf(s, pat, from).value;
    SuffixPieces(s, pat, from);
    OccurrencesStep(s[from..], pat, rep, s[from..p], s[p + |pat|..]);
  }

  /** The pieces around the first occurrence in a suffix are pieces of the
      whole text. */
  lemma SuffixPieces(s: string, pat: string, from: nat)
    requires from <= |s| && IndexOf(s, pat, from).Some?
    ensures IndexOf(s[from..], pat, 0).Some?
    ensures s[from..][..IndexOf(s[from..], pat, 0).value] == s[from..IndexOf(s, pat, from).value]
    ensures s[from..][IndexOf(s[from..], pat, 0).value + |pat|..] == s[IndexOf(s, pat, from).value + |pat|..]
  {
    IndexOfShift(s, pat, from, 0);
  }

  /** The literal replacement at its first occurrence, given the text before
      and after that occurrence. */
  lemma OccurrencesStep(t: string, pat: string, rep: string, head: string, rest: string)
    requires |pat| > 0 && IndexOf(t, pat, 0).Some?
    requires head == t[..IndexOf(t, pat, 0).value] && rest == t[IndexOf(t, pat, 0).value + |pat|..]
    ensures ReplaceOccurrences(t, pat, rep) == head + rep + ReplaceOccurrences(rest, pat, rep)
  {
    OccurrencesUnfold(t, pat, rep);
  }

  lemma OccurrencesUnfold(t: string, pat: string, rep: string)
    requires |pat| > 0 && IndexOf(t, pat, 0).Some?
    ensures ReplaceOccurrences(t, pat, rep)
      == t[..IndexOf(t, pat, 0).value] + rep + ReplaceOccurrences(t[IndexOf(t, pat, 0).value + |pat|..], pat, rep)
  {
  }

  lemma LiteralAbsent(s: string, pat: string, rep: string, from: nat)
    requires from <= |s| && |pat| > 0 && IndexOf(s, pat, from).None?
    ensures ReplaceAllJsFrom(s, pat, rep, from) == s[from..]
    ensures ReplaceOccurrences(s[from..], pat, rep) == s[from..]
  {
    IndexOfShift(s, pat, from, 0);
  }

  /** The same for the empty search value. */
  lemma {:induction false} ReplaceAllJsFromPlainEmpty(s: string, rep: string, from: nat)
    requires from <= |s| && '$' !in rep
    ensures ReplaceAllJsFrom(s, "", rep, from) == InsertAround(s[from..], rep)
    decreases |s| - from
  {
    assert OccursAt(s, "", from);
    ExpandPlain(rep, s, from, "");
    if from < |s| {
      ReplaceAllJsFromPlainEmpty(s, rep, from + 1);
      assert s[from..][1..] == s[from + 1..];
    }
  }

  /** Without `$` in the replacement, JavaScript's `replaceAll` is the
      literal replacement. */
  lemma ReplaceAllJsPlain(s: string, pat: string, rep: string)
    requires '$' !in rep
    ensures ReplaceAllJs(s, pat, rep) == ReplaceAll(s, pat, rep)
  {
    assert s[0..] == s;
    if |pat| > 0 {
      ReplaceAllJsFromPlain(s, pat, rep, 0);
    } else {
      ReplaceAllJsFromPlainEmpty(s, rep, 0);
    }
  }
}

=== FILE: prompts.dfy ===
/** The `select` prompt through which a user picks one of several entries.
    The terminal interaction itself is a parameter of type `Select`: it gets
    the prompt and returns the chosen value, or `None` when the user cancels. */
module Prompts {
  import opened Wrappers

  datatype Choice = Choice(title: string, value: nat)

  datatype SelectPrompt = SelectPrompt(message: string, choices: seq<Choice>)

  type Select = SelectPrompt -> Option<nat>

  /** One choice per title, whose value is the title's position. */
  function IndexedChoices(titles: seq<string>): (r: seq<Choice>)
    ensures |r| == |titles|
    ensures forall i :: 0 <= i < |titles| ==> r[i].title == titles[i] && r[i].value == i
  {
    seq(|titles|, i requires 0 <= i < |titles| => Choice(titles[i], i))
  }
}

=== FILE: resolve_template_config.dfy ===
/** `resolveTemplateConfig` of the package entry: a configuration holding one
    set of template arguments or a list of them is narrowed to one, asking the
    user when there are several, and its directory is rebased on an optional
    directory argument. */
module ArgsSelection {
  import opened Wrappers
  import opened Paths
  import opened Templates
  import opened Prompts
  import opened Text

  /** A configuration value: a single arguments object or an array of them. */
  datatype ConfigValue = Single(args: TemplateArgs) | Several(list: seq<TemplateArgs>)

  datatype SelectionError = NoTemplatesProvided | NoTemplateChosen | NoSuchTemplate(index: nat)

  /** The message of the error thrown; an answer outside the choices has no
      message of the package's own. */
  function ErrorMessage(e: SelectionError): Option<string> {
    match e
    case NoTemplatesProvided => Some("No templates provided.")
    case NoTemplateChosen => Some("No template was chosen.")
    case NoSuchTemplate(_) => None
  }

  const TemplatePromptMessage: string := "Select template:"

  /** The configuration value as an array. */
  function Candidates(config: ConfigValue): (r: seq<TemplateArgs>)
    ensures config.Single? ==> r == [config.args]
    ensures config.Several? ==> r == config.list
  {
    match config
    case Single(args) => [args]
    case Several(list) => list
  }

  /** The prompt offering the candidates by name. */
  function TemplatePrompt(candidates: seq<TemplateArgs>): (p: SelectPrompt)
    ensures p.message == TemplatePromptMessage
    ensures |p.choices| == |candidates|
    ensures forall i :: 0 <= i < |candidates| ==> p.choices[i] == Choice(candidates[i].name, i)
  {
    SelectPrompt(TemplatePromptMessage, IndexedChoices(seq(|candidates|, i requires 0 <= i < |candidates| => candidates[i].name)))
  }

  /** The directory argument, when given, is resolved against the arguments'
      own directory (`"."` when unset), itself resolved against `cwd`. */
  function Rebase(args: TemplateArgs, cwd: Path, directory: Option<string>): (r: TemplateArgs)
    ensures directory.None? ==> r == args
    ensures directory.Some? ==> r.directory.Some? && r == args.(directory := r.directory)
  {
    match directory
    case None => args
    case Some(d) => args.(directory := Some(Render(Resolve(Resolve(cwd, args.directory.GetOr(".")), d))))
  }

  /** The selection: the prompt shown (if any) and the arguments chosen. */
  function SelectArgs(config: ConfigValue, directory: Option<string>, cwd: Path, select: Select)
    : (r: (Option<SelectPrompt>, Result<TemplateArgs, SelectionError>))
    ensures |Candidates(config)| == 0 ==> r == (None, Failure(NoTemplatesProvided))
    ensures |Candidates(config)| == 1 ==> r == (None, Success(Rebase(Candidates(config)[0], cwd, directory)))
    ensures |Candidates(config)| >= 2 ==> r.0 == Some(TemplatePrompt(Candidates(config)))
    ensures |Candidates(config)| >= 2 ==>
      (r.1 == Failure(NoTemplateChosen) <==> select(TemplatePrompt(Candidates(config))).None?)
    ensures var c := Candidates(config); var a := select(TemplatePrompt(c));
      |c| >= 2 && a.Some? && a.value < |c| ==> r.1 == Success(Rebase(c[a.value], cwd, directory))
    ensures var c := Candidates(config); var a := select(TemplatePrompt(c));
      |c| >= 2 && a.Some? && a.value >= |c| ==> r.1 == Failure(NoSuchTemplate(a.value))
    ensures r.1.Success? ==> exists i :: (0 <= i < |Candidates(config)|
      && r.1.value == Rebase(Candidates(config)[i], cwd, directory)
      && (|Candidates(config)| >= 2 ==> select(TemplatePrompt(Candidates(config))) == Some(i)))
  {
    var candidates := Candidates(config);
    if |candidates| == 0 then (None, Failure(NoTemplatesProvided))
    else if |candidates| == 1 then (None, Success(Rebase(candidates[0], cwd, directory)))
    else
      var prompt := TemplatePrompt(candidates);
      match select(prompt)
      case None => (Some(prompt), Failure(NoTemplateChosen))
      case Some(i) =>
        if i < |candidates| then (Some(prompt), Success(Rebase(candidates[i], cwd, directory)))
        else (Some(prompt), Failure(NoSuchTemplate(i)))
  }

  // ---------------------------------------------------------------------------
  // Lemmas

  /** An absolute directory argument replaces the arguments' directory. */
  lemma RebaseAbsolute(args: TemplateArgs, cwd: Path, d: string)
    requires IsAbsolute(d)
    ensures Rebase(args, cwd, Some(d)).directory == Some(Render(Resolve([], d)))
  {
    assert Resolve(Resolve(cwd, args.directory.GetOr(".")), d) == Resolve([], d);
  }

  /** Rebasing a second time on the same absolute directory changes nothing. */
  lemma RebaseAbsoluteIdempotent(args: TemplateArgs, cwd: Path, d: string)
    requires IsAbsolute(d)
    ensures Rebase(Rebase(args, cwd, Some(d)), cwd, Some(d)) == Rebase(args, cwd, Some(d))
  {
    RebaseAbsolute(args, cwd, d);
    RebaseAbsolute(Rebase(args, cwd, Some(d)), cwd, d);
  }

  /** A relative directory argument of plain segments descends from the
      arguments' own directory, which is the working directory when unset. */
  lemma RebaseRelative(args: TemplateArgs, cwd: Path, segs: seq<string>)
    requires |segs| >= 1 && Normal(segs)
    ensures Rebase(args, cwd, Some(JoinWith(segs, [Separator]))).directory
      == Some(Render(Resolve(cwd, args.directory.GetOr(".")) + segs))
    ensures args.directory.None? ==>
      Rebase(args, cwd, Some(JoinWith(segs, [Separator]))).directory == Some(Render(cwd + segs))
  {
    var base := Resolve(cwd, args.directory.GetOr("."));
    ResolveJoined(base, segs);
    WalkSegments(base, segs);
    ResolveDot(cwd);
  }

  /** From a normal working directory, a rebased directory is a normal absolute path. */
  lemma RebaseNormal(args: TemplateArgs, cwd: Path, d: string)
    requires Normal(cwd)
    ensures exists p :: Normal(p) && Rebase(args, cwd, Some(d)).directory == Some(Render(p))
  {
    var base := Resolve(cwd, args.directory.GetOr("."));
    ResolveNormal(cwd, args.directory.GetOr("."));
    ResolveNormal(base, d);
    assert Normal(Resolve(base, d));
  }
}

=== FILE: template_config.dfy ===
/** `resolveTemplateConfig` of the command line: the configuration file of a
    directory is either template arguments, whose directory is then resolved
    against that directory, or a router whose routes lead, after the user picks
    one, to another directory to resolve in the same way. The loaded
    configuration files are a map from file path to configuration. */
module Routing {
  import opened Wrappers
  import opened Paths
  import opened Templates
  import opened Prompts

  datatype Route = Route(directory: string, message: Option<string>)

  datatype Config = Leaf(args: TemplateArgs) | Router(routes: seq<Route>, message: Option<string>)

  datatype RoutingError = NoRouteChosen | NoSuchRoute(index: nat) | OutOfFuel

  /** The configuration file names, in the order they are looked for. */
  const ConfigFileNames: seq<string> := ["template.js", "template.cjs", "template.mjs"]

  const DefaultRouteMessage: string := "Select route:"

  const NoRouteChosenMessage: string := "No template was chosen."

  /** The message a resolution error is thrown with; `None` where the code
      fails with a runtime `TypeError` (an answer outside the routes) or does
      not fail at all (the fuel bound). */
  function ErrorMessage(e: RoutingError): Option<string> {
    match e
    case NoRouteChosen => Some(NoRouteChosenMessage)
    case NoSuchRoute(_) => None
    case OutOfFuel => None
  }

  /** The position of the first candidate at or after `from` that exists. */
  function FirstPresent(candidates: seq<Path>, configs: map<Path, Config>, from: nat): (r: Option<nat>)
    requires from <= |candidates|
    ensures r.None? <==> forall i :: from <= i < |candidates| ==> candidates[i] !in configs
    ensures r.Some? ==> from <= r.value < |candidates| && candidates[r.value] in configs
    ensures r.Some? ==> forall j :: from <= j < r.value ==> candidates[j] !in configs
    decreases |candidates| - from
  {
    if from == |candidates| then None
    else if candidates[from] in configs then Some(from)
    else FirstPresent(candidates, configs, from + 1)
  }

  /** The configuration file paths looked for in a directory. */
  function ConfigPaths(directory: Path): (r: seq<Path>)
    ensures |r| == |ConfigFileNames|
    ensures forall i :: 0 <= i < |ConfigFileNames| ==> r[i] == directory + [ConfigFileNames[i]]
  {
    seq(|ConfigFileNames|, i requires 0 <= i < |ConfigFileNames| => directory + [ConfigFileNames[i]])
  }

  /** The configuration of a directory: that of the first configuration file
      present, or an empty arguments object when there is none. The search
      over the three names is written out; `ImportIsFirstPresent` proves it the
      loop over `ConfigPaths`. */
  function ImportConfig(configs: map<Path, Config>, directory: Path): (r: Config)
    ensures (forall i :: 0 <= i < |ConfigFileNames| ==> directory + [ConfigFileNames[i]] !in configs)
      ==> r == Leaf(EmptyArgs)
    ensures r != Leaf(EmptyArgs) ==> exists i :: (0 <= i < |ConfigFileNames|
      && directory + [ConfigFileNames[i]] in configs && r == configs[directory + [ConfigFileNames[i]]])
  {
    if directory + [ConfigFileNames[0]] in configs then configs[directory + [ConfigFileNames[0]]]
    else if directory + [ConfigFileNames[1]] in configs then configs[directory + [ConfigFileNames[1]]]
    else if directory + [ConfigFileNames[2]] in configs then configs[directory + [ConfigFileNames[2]]]
    else Leaf(EmptyArgs)
  }

  /** The prompt offering a router's routes, titled by message or directory. */
  function RoutePrompt(routes: seq<Route>, message: Option<string>): (p: SelectPrompt)
    ensures p.message == message.GetOr(DefaultRouteMessage)
    ensures |p.choices| == |routes|
    ensures forall i :: 0 <= i < |routes| ==>
      p.choices[i] == Choice(routes[i].message.GetOr(routes[i].directory), i)
  {
    SelectPrompt(message.GetOr(DefaultRouteMessage),
      IndexedChoices(seq(|routes|, i requires 0 <= i < |routes| => routes[i].message.GetOr(routes[i].directory))))
  }

  /** The directory whose configuration is template arguments, reached by
      following the routes the user picks. Every router costs one unit of
      `fuel`; a route cycle the user keeps choosing runs out of it. */
  function Follow(configs: map<Path, Config>, directory: Path, select: Select, fuel: nat): (r: Result<Path, RoutingError>)
    ensures ImportConfig(configs, directory).Leaf? ==> r == Success(directory)
    ensures r.Success? ==> ImportConfig(configs, r.value).Leaf?
    decreases fuel
  {
    match ImportConfig(configs, directory)
    case Leaf(_) => Success(directory)
    case Router(routes, message) =>
      if fuel == 0 then Failure(OutOfFuel)
      else
        match select(RoutePrompt(routes, message))
        case None => Failure(NoRouteChosen)
        case Some(i) =>
          if i < |routes| then Follow(configs, Resolve(directory, routes[i].directory), select, fuel - 1)
          else Failure(NoSuchRoute(i))
  }

  /** Template arguments read from `directory`, with their own directory
      (`"."` when unset) resolved against it. */
  function Localize(args: TemplateArgs, directory: Path): (r: TemplateArgs)
    ensures args.directory.None? ==> r.directory == Some(Render(directory))
    ensures args.directory.Some? ==> r.directory == Some(Render(Resolve(directory, args.directory.value)))
    ensures r.(directory := args.directory) == args
  {
    ResolveDot(directory);
    args.(directory := Some(Render(Resolve(directory, args.directory.GetOr(".")))))
  }

  /** The template arguments a directory resolves to. */
  function ResolveConfig(configs: map<Path, Config>, directory: Path, select: Select, fuel: nat): (r: Result<TemplateArgs, RoutingError>)
    ensures ImportConfig(configs, directory).Leaf? ==>
      r == Success(Localize(ImportConfig(configs, directory).args, directory))
    ensures r.Success? ==> exists leaf :: (ImportConfig(configs, leaf).Leaf?
      && Follow(configs, directory, select, fuel) == Success(leaf)
      && r.value == Localize(ImportConfig(configs, leaf).args, leaf))
    ensures r.Failure? <==> Follow(configs, directory, select, fuel).Failure?
  {
    var leaf :- Follow(configs, directory, select, fuel);
    Success(Localize(ImportConfig(configs, leaf).args, leaf))
  }

  // ---------------------------------------------------------------------------
  // Lemmas

  /** The first configuration file present is the one imported. */
  lemma ImportFirstPresent(configs: map<Path, Config>, directory: Path, i: nat)
    requires i < |ConfigFileNames| && directory + [ConfigFileNames[i]] in configs
    requires forall j :: 0 <= j < i ==> directory + [ConfigFileNames[j]] !in configs
    ensures ImportConfig(configs, directory) == configs[directory + [ConfigFileNames[i]]]
  {
    assert ConfigPaths(directory)[i] in configs;
  }

  /** The configuration imported is that of the first candidate path the
      search over `ConfigPaths` finds, and the empty arguments when it finds
      none. */
  lemma ImportIsFirstPresent(configs: map<Path, Config>, directory: Path)
    ensures var candidates := ConfigPaths(directory);
      ImportConfig(configs, directory) == match FirstPresent(candidates, configs, 0)
        case None => Leaf(EmptyArgs)
        case Some(i) => configs[candidates[i]]
  {
    var candidates := ConfigPaths(directory);
    assert candidates == [directory + [ConfigFileNames[0]], directory + [ConfigFileNames[1]], directory + [ConfigFileNames[2]]];
  }

  /** The configuration file paths are the file names resolved against the directory. */
  lemma ConfigPathsResolved(directory: Path)
    ensures forall i :: 0 <= i < |ConfigFileNames| ==> ConfigPaths(directory)[i] == Resolve(directory, ConfigFileNames[i])
  {
    forall i | 0 <= i < |ConfigFileNames|
      ensures ConfigPaths(directory)[i] == Resolve(directory, ConfigFileNames[i])
    {
      ResolveFileName(directory, ConfigFileNames[i]);
    }
  }

  /** A router whose answer picks a route continues in that route's directory. */
  lemma FollowStep(configs: map<Path, Config>, directory: Path, select: Select, fuel: nat)
    requires fuel > 0
    requires ImportConfig(configs, directory).Router?
    requires var c := ImportConfig(configs, directory);
      var answer := select(RoutePrompt(c.routes, c.message));
      answer.Some? && answer.value < |c.routes|
    ensures var c := ImportConfig(configs, directory);
      var answer := select(RoutePrompt(c.routes, c.message));
      Follow(configs, directory, select, fuel)
        == Follow(configs, Resolve(directory, c.routes[answer.value].directory), select, fuel - 1)
  {
  }

  /** Cancelling a router's prompt fails with "No template was chosen.". */
  lemma CancelFails(configs: map<Path, Config>, directory: Path, select: Select, fuel: nat)
    requires fuel > 0
    requires ImportConfig(configs, directory).Router?
    requires var c := ImportConfig(configs, directory); select(RoutePrompt(c.routes, c.message)).None?
    ensures Follow(configs, directory, select, fuel) == Failure(NoRouteChosen)
    ensures ResolveConfig(configs, directory, select, fuel) == Failure(NoRouteChosen)
    ensures ErrorMessage(ResolveConfig(configs, directory, select, fuel).error) == Some("No template was chosen.")
  {
  }

  /** A router that resolves had fuel left and an answer naming one of its routes. */
  lemma FollowRouterAnswered(configs: map<Path, Config>, directory: Path, select: Select, fuel: nat)
    requires Follow(configs, directory, select, fuel).Success?
    requires ImportConfig(configs, directory).Router?
    ensures var c := ImportConfig(configs, directory);
      var answer := select(RoutePrompt(c.routes, c.message));
      fuel > 0 && answer.Some? && answer.value < |c.routes|
  {
  }

  /** More fuel does not change a resolution that succeeds. */
  lemma {:induction false} FollowFuelMonotone(configs: map<Path, Config>, directory: Path, select: Select, fuel: nat, more: nat)
    requires Follow(configs, directory, select, fuel).Success?
    requires fuel <= more
    ensures Follow(configs, directory, select, more) == Follow(configs, directory, select, fuel)
    decreases fuel
  {
    var c := ImportConfig(configs, directory);
    if c.Router? {
      var answer := select(RoutePrompt(c.routes, c.message));
      FollowRouterAnswered(configs, directory, select, fuel);
      var next := Resolve(directory, c.routes[answer.value].directory);
      FollowStep(configs, directory, select, fuel);
      FollowStep(configs, directory, select, more);
      FollowFuelMonotone(configs, next, select, fuel - 1, more - 1);
    }
  }

  /** A user who answers a router's prompt with the route back to its own
      directory every time it is shown is asked again and again: the
      resolution never ends, however much fuel is given. */
  lemma {:induction false} SelfRouteDiverges(configs: map<Path, Config>, directory: Path, select: Select, fuel: nat)
    requires ImportConfig(configs, directory).Router?
    requires var c := ImportConfig(configs, directory);
      var answer := select(RoutePrompt(c.routes, c.message));
      answer.Some? && answer.value < |c.routes| && Resolve(directory, c.routes[answer.value].directory) == directory
    ensures Follow(configs, directory, select, fuel) == Failure(OutOfFuel)
    decreases fuel
  {
    if fuel > 0 {
      SelfRouteDiverges(configs, directory, select, fuel - 1);
    }
  }

  /** Even a router with a single route asks the user, and cancelling it fails. */
  lemma SingleRouteStillAsks(configs: map<Path, Config>, directory: Path, select: Select, fuel: nat, route: Route)
    requires ImportConfig(configs, directory) == Router([route], None)
    requires fuel > 0
    requires select(SelectPrompt(DefaultRouteMessage, [Choice(route.message.GetOr(route.directory), 0)])).None?
    ensures ResolveConfig(configs, directory, select, fuel) == Failure(NoRouteChosen)
  {
    assert RoutePrompt([route], None) == SelectPrompt(DefaultRouteMessage, [Choice(route.message.GetOr(route.directory), 0)]);
    CancelFails(configs, directory, select, fuel);
  }

  /** A directory without configuration files resolves to empty arguments
      located in that directory. */
  lemma UnconfiguredDirectory(configs: map<Path, Config>, directory: Path, select: Select, fuel: nat)
    requires forall i :: 0 <= i < |ConfigFileNames| ==> directory + [ConfigFileNames[i]] !in configs
    ensures ResolveConfig(configs, directory, select, fuel) == Success(EmptyArgs.(directory := Some(Render(directory))))
  {
  }

  /** Arguments read from a normal directory are located at a normal path. */
  lemma LocalizeNormal(args: TemplateArgs, directory: Path)
    requires Normal(directory)
    ensures exists p :: Normal(p) && Localize(args, directory).directory == Some(Render(p))
  {
    ResolveNormal(directory, args.directory.GetOr("."));
    assert Normal(Resolve(directory, args.directory.GetOr(".")));
  }
}

=== FILE: templates.dfy ===
/** A template built from its arguments and the files found below its
    `template` directory: file classification, the insertion placeholder, the
    prompt step, and the choice and environment of the hook scripts. */
module Templates {
  import opened Wrappers
  import opened Text
  import opened Paths
  import opened Abstraction

  const DefaultInsertionPattern: string := "<($)"
  const DefaultBashScriptShell: string := "bash"
  const DefaultBatchScriptShell: string := "cmd"
  const DefaultBashScriptExtension: string := ".sh"
  const DefaultBatchScriptExtension: string := ".bat"
  const DefaultInputFileExtension: string := ".in"
  const TemplateSubdirectory: string := "template"
  const ScriptSubdirectory: string := "scripts"

  datatype Shell = Bash | Batch

  /** The arguments of a template; `None` stands for a null or missing field.
      The prompt script is given by the names of its questions. */
  datatype TemplateArgs = TemplateArgs(
    name: string,
    directory: Option<string>,
    inputFileExtension: Option<string>,
    insertionPattern: Option<string>,
    promptScript: Option<seq<string>>,
    onPromptSubmit: Option<Vars -> Vars>,
    prioritizeBashScripts: Option<bool>,
    bashScriptShell: Option<string>,
    batchScriptShell: Option<string>,
    bashScriptExtension: Option<string>,
    batchScriptExtension: Option<string>)

  datatype Template = Template(
    name: string,
    templateDirectory: Path,
    scriptDirectory: Path,
    promptScript: seq<string>,
    onPromptSubmit: Vars -> Vars,
    insertionPattern: string,
    shells: seq<Shell>,
    bashScriptShell: string,
    batchScriptShell: string,
    bashScriptExtension: string,
    batchScriptExtension: string,
    files: seq<TemplateFile>)

  /** The arguments of an empty configuration object. */
  const EmptyArgs: TemplateArgs :=
    TemplateArgs("", None, None, None, None, None, None, None, None, None, None)

  /** One file found below the template directory: an input file when its path
      ends with the input extension, which is then cut off the target path. */
  function ClassifyFile(templateDirectory: Path, extension: string, file: Path): (f: TemplateFile)
    ensures f.sourcePath == file
    ensures f.action == CopyInserted <==> EndsWith(Render(file), extension)
    ensures f.action == Copy ==> f.targetPath == Relative(templateDirectory, file)
    ensures f.action == CopyInserted && EndsWith(Relative(templateDirectory, file), extension) ==>
      f.targetPath + extension == Relative(templateDirectory, file)
  {
    var action := if EndsWith(Render(file), extension) then CopyInserted else Copy;
    var relativePath := Relative(templateDirectory, file);
    var targetPath := if action == CopyInserted then SliceTo(relativePath, |relativePath| - |extension|) else relativePath;
    SliceOffSuffix(relativePath, extension);
    TemplateFile(targetPath, file, action)
  }

  /** The file list of a template: one entry per file found, in the order found,
      duplicates kept. */
  function ClassifyFiles(templateDirectory: Path, extension: string, files: seq<Path>): (r: seq<TemplateFile>)
    ensures |r| == |files|
    ensures forall i :: 0 <= i < |files| ==> r[i].sourcePath == files[i]
    ensures forall i :: 0 <= i < |files| ==> (r[i].action == CopyInserted <==> EndsWith(Render(files[i]), extension))
    ensures forall i :: 0 <= i < |files| ==> r[i] == ClassifyFile(templateDirectory, extension, files[i])
  {
    seq(|files|, i requires 0 <= i < |files| => ClassifyFile(templateDirectory, extension, files[i]))
  }

  /** The shells able to run hook scripts, in order of preference. */
  function Shells(canExecuteBash: bool, canExecuteBatch: bool, prioritizeBash: bool): (r: seq<Shell>)
    ensures Bash in r <==> canExecuteBash
    ensures Batch in r <==> canExecuteBatch
    ensures |r| <= 2 && (|r| == 2 ==> r[0] != r[1])
    ensures canExecuteBash && canExecuteBatch ==> (r[0] == Bash <==> prioritizeBash)
  {
    if canExecuteBash then
      if canExecuteBatch then
        if prioritizeBash then [Bash, Batch] else [Batch, Bash]
      else [Bash]
    else if canExecuteBatch then [Batch]
    else []
  }

  function Identity(vars: Vars): Vars {
    vars
  }

  /** The private constructor. `files` are the absolute paths found below the
      template directory; `cwd` is the working directory that relative
      template directories are resolved against. */
  function NewTemplate(args: TemplateArgs, files: seq<Path>, canExecuteBash: bool, canExecuteBatch: bool, cwd: Path): (t: Template)
    ensures Normal(cwd) ==> Normal(t.templateDirectory) && Normal(t.scriptDirectory)
    ensures Dirname(t.templateDirectory) == Dirname(t.scriptDirectory)
    ensures |t.files| == |files|
    ensures forall i :: 0 <= i < |files| ==> t.files[i].sourcePath == files[i]
    ensures forall i :: 0 <= i < |files| ==>
      (t.files[i].action == CopyInserted <==> EndsWith(Render(files[i]), args.inputFileExtension.GetOr(DefaultInputFileExtension)))
    ensures args.insertionPattern.None? ==> t.insertionPattern == DefaultInsertionPattern
    ensures args.onPromptSubmit.None? ==> forall vars :: t.onPromptSubmit(vars) == vars
    ensures args.promptScript.None? ==> t.promptScript == []
    ensures t.templateDirectory == Resolve(cwd, args.directory.GetOr(".")) + [TemplateSubdirectory]
    ensures t.scriptDirectory == Resolve(cwd, args.directory.GetOr(".")) + [ScriptSubdirectory]
    ensures t.files == ClassifyFiles(t.templateDirectory, args.inputFileExtension.GetOr(DefaultInputFileExtension), files)
    ensures t.shells == Shells(canExecuteBash, canExecuteBatch, args.prioritizeBashScripts.GetOr(false))
    ensures t.name == args.name
    ensures args.bashScriptShell.None? ==> t.bashScriptShell == DefaultBashScriptShell
    ensures args.batchScriptShell.None? ==> t.batchScriptShell == DefaultBatchScriptShell
    ensures args.bashScriptExtension.None? ==> t.bashScriptExtension == DefaultBashScriptExtension
    ensures args.batchScriptExtension.None? ==> t.batchScriptExtension == DefaultBatchScriptExtension
  {
    var directory := Resolve(cwd, args.directory.GetOr("."));
    ResolveNormal(cwd, args.directory.GetOr("."));
    var templateDirectory := directory + [TemplateSubdirectory];
    var scriptDirectory := directory + [ScriptSubdirectory];
    var extension := args.inputFileExtension.GetOr(DefaultInputFileExtension);
    Template(
      args.name,
      templateDirectory,
      scriptDirectory,
      args.promptScript.GetOr([]),
      args.onPromptSubmit.GetOr(Identity),
      args.insertionPattern.GetOr(DefaultInsertionPattern),
      Shells(canExecuteBash, canExecuteBatch, args.prioritizeBashScripts.GetOr(false)),
      args.bashScriptShell.GetOr(DefaultBashScriptShell),
      args.batchScriptShell.GetOr(DefaultBatchScriptShell),
      args.bashScriptExtension.GetOr(DefaultBashScriptExtension),
      args.batchScriptExtension.GetOr(DefaultBatchScriptExtension),
      ClassifyFiles(templateDirectory, extension, files))
  }

  /** `createInsertionPattern`: the first `$` of the pattern is replaced by the
      variable name, inserted literally. */
  function CreateInsertionPattern(insertionPattern: string, variableName: string): string {
    ReplaceFirst(insertionPattern, "$", variableName)
  }

  /** `createInsertionPattern` as the code evaluates it: `replace` expands `$`
      patterns in the variable name. */
  function InsertionPatternAsWritten(insertionPattern: string, variableName: string): string {
    ReplaceFirstJs(insertionPattern, "$", variableName)
  }

  datatype ConfigureError = PromptCancelled

  /** `configure`: the answers to the prompt script, or `None` when the user
      cancelled, passed through the submit callback. */
  function Configure(t: Template, answers: Option<Vars>): (r: Result<Vars, ConfigureError>)
    ensures r.Failure? <==> answers.None?
    ensures r.Success? ==> r.value == t.onPromptSubmit(answers.value)
  {
    match answers
    case None => Failure(PromptCancelled)
    case Some(input) => Success(t.onPromptSubmit(input))
  }

  function ScriptName(hook: Hook): string {
    match hook
    case OnInstalling => "oninstalling"
    case OnInstalled => "oninstalled"
  }

  /** `_getScriptPath`: the hook script in the script directory, with every
      backslash turned into a slash for bash. */
  function ScriptPath(t: Template, shell: Shell, hook: Hook): (r: string)
    ensures shell == Bash ==> '\\' !in r
    ensures shell == Batch || '\\' !in Render(Resolve(t.scriptDirectory, ScriptName(hook) + t.bashScriptExtension)) ==>
      r == Render(Resolve(t.scriptDirectory, ScriptName(hook) + (if shell == Bash then t.bashScriptExtension else t.batchScriptExtension)))
  {
    var extension := if shell == Bash then t.bashScriptExtension else t.batchScriptExtension;
    var scriptPath := Render(Resolve(t.scriptDirectory, ScriptName(hook) + extension));
    if shell == Bash then
      SlashesForBackslashes(scriptPath);
      ReplaceAll(scriptPath, "\\", "/")
    else scriptPath
  }

  /** The index of the first shell of `shells`, from `from` on, whose script
      for `hook` exists. */
  function FirstShell(t: Template, shells: seq<Shell>, hook: Hook, existing: set<string>, from: nat): (r: Option<nat>)
    requires from <= |shells|
    ensures r.None? <==> forall i :: from <= i < |shells| ==> ScriptPath(t, shells[i], hook) !in existing
    ensures r.Some? ==> from <= r.value < |shells| && ScriptPath(t, shells[r.value], hook) in existing
    ensures r.Some? ==> forall j :: from <= j < r.value ==> ScriptPath(t, shells[j], hook) !in existing
    decreases |shells| - from
  {
    if from == |shells| then None
    else if ScriptPath(t, shells[from], hook) in existing then Some(from)
    else FirstShell(t, shells, hook, existing, from + 1)
  }

  /** The variables added to an environment in order: a later binding of the
      same name overrides an earlier one. */
  function AddVars(env: map<string, string>, vars: Vars): (r: map<string, string>)
    ensures r.Keys == env.Keys + Names(vars)
    ensures forall name :: name in Names(vars) ==> Lookup(vars, name) == Some(r[name])
    ensures forall name :: name in env && name !in Names(vars) ==> r[name] == env[name]
    decreases |vars|
  {
    if |vars| == 0 then env
    else
      var init := vars[..|vars| - 1];
      var last := vars[|vars| - 1];
      assert Names(vars) == Names(init) + {last.0};
      AddVars(env, init)[last.0 := last.1]
  }

  /** The environment of a hook script: the three directories, then every
      variable, which may override them. */
  function Environment(t: Template, directory: Path, vars: Vars): (env: map<string, string>)
    ensures env.Keys == {"TEMPLATEDIR", "SCRIPTDIR", "INSTALLDIR"} + Names(vars)
    ensures forall name :: name in Names(vars) ==> Lookup(vars, name) == Some(env[name])
    ensures "TEMPLATEDIR" !in Names(vars) ==> env["TEMPLATEDIR"] == Render(t.templateDirectory)
    ensures "SCRIPTDIR" !in Names(vars) ==> env["SCRIPTDIR"] == Render(t.scriptDirectory)
    ensures "INSTALLDIR" !in Names(vars) ==> env["INSTALLDIR"] == Render(directory)
  {
    var fixed := map["TEMPLATEDIR" := Render(t.templateDirectory), "SCRIPTDIR" := Render(t.scriptDirectory), "INSTALLDIR" := Render(directory)];
    AddVars(fixed, vars)
  }

  /** A hook script run: the script, the shell program, the working directory
      and the environment. */
  datatype ScriptRun = ScriptRun(shell: Shell, scriptPath: string, shellProgram: string, cwd: Path, env: map<string, string>)

  /** `_executeScript`: the run of the first existing script for the hook, or
      nothing when no preferred shell has a script. */
  function ExecuteScript(t: Template, hook: Hook, directory: Path, vars: Vars, existing: set<string>): (r: Option<ScriptRun>)
    ensures r.None? <==> forall i :: 0 <= i < |t.shells| ==> ScriptPath(t, t.shells[i], hook) !in existing
    ensures r.Some? ==> exists i :: (0 <= i < |t.shells| && t.shells[i] == r.value.shell &&
      r.value.scriptPath == ScriptPath(t, t.shells[i], hook) && r.value.scriptPath in existing &&
      forall j :: 0 <= j < i ==> ScriptPath(t, t.shells[j], hook) !in existing)
    ensures r.Some? ==> r.value.cwd == directory && r.value.env == Environment(t, directory, vars)
    ensures r.Some? ==> r.value.shellProgram == (if r.value.shell == Bash then t.bashScriptShell else t.batchScriptShell)
  {
    match FirstShell(t, t.shells, hook, existing, 0)
    case None => None
    case Some(i) =>
      var shell := t.shells[i];
      Some(ScriptRun(shell, ScriptPath(t, shell, hook),
        if shell == Bash then t.bashScriptShell else t.batchScriptShell,
        directory, Environment(t, directory, vars)))
  }

  // ---------------------------------------------------------------------------
  // Lemmas

  /** Cutting `|suffix|` characters off a text that ends with `suffix` leaves
      the part before it. */
  lemma SliceOffSuffix(s: string, suffix: string)
    ensures EndsWith(s, suffix) ==> SliceTo(s, |s| - |suffix|) + suffix == s
  {
  }

  /** Turning backslashes into slashes leaves none, and changes nothing when
      there were none. */
  lemma SlashesForBackslashes(s: string)
    ensures '\\' !in ReplaceAll(s, "\\", "/")
    ensures '\\' !in s ==> ReplaceAll(s, "\\", "/") == s
  {
    ReplaceCharRemoves(s, '\\', "/");
    if '\\' !in s {
      forall i | 0 <= i <= |s|
        ensures !OccursAt(s, "\\", i)
      {
        if i < |s| {
          assert s[i..i + 1][0] == s[i] != '\\';
        }
      }
      ReplaceAllAbsent(s, "\\", "/");
    }
  }

  /** Only the first `$` of the pattern is replaced, by the name as it is. */
  lemma InsertionPatternFirstDollar(before: string, after: string, variableName: string)
    requires '$' !in before
    ensures CreateInsertionPattern(before + "$" + after, variableName) == before + variableName + after
  {
    var s := before + "$" + after;
    FirstDollarAt(before, after);
    assert s[..|before|] == before;
    assert s[|before| + 1..] == after;
  }

  /** The first `$` of `before + "$" + after` is the one after `before`. */
  lemma FirstDollarAt(before: string, after: string)
    requires '$' !in before
    ensures IndexOf(before + "$" + after, "$", 0) == Some(|before|)
  {
    var s := before + "$" + after;
    assert OccursAt(s, "$", |before|);
    forall j | 0 <= j < |before|
      ensures !OccursAt(s, "$", j)
    {
      assert s[j] == before[j];
    }
    IndexOfIs(s, "$", 0, |before|);
  }

  /** The default placeholder of a variable is its name wrapped in `<(` and `)`. */
  lemma DefaultInsertionPatternWraps(variableName: string)
    ensures CreateInsertionPattern(DefaultInsertionPattern, variableName) == "<(" + variableName + ")"
  {
    assert DefaultInsertionPattern == "<(" + "$" + ")";
    InsertionPatternFirstDollar("<(", ")", variableName);
  }

  /** For a name without `$` the code as written builds the intended placeholder. */
  lemma InsertionPatternAsWrittenPlain(insertionPattern: string, variableName: string)
    requires '$' !in variableName
    ensures InsertionPatternAsWritten(insertionPattern, variableName) == CreateInsertionPattern(insertionPattern, variableName)
  {
    match IndexOf(insertionPattern, "$", 0)
    case None =>
    case Some(p) =>
      ExpandPlain(variableName, insertionPattern, p, "$");
  }

  /** The code as written turns the name `$&` into the matched `$`, so the
      default placeholder stays `<($)`; the literal insertion gives `<($&)`. */
  lemma DollarNameExpanded()
    ensures InsertionPatternAsWritten(DefaultInsertionPattern, "$&") == "<($)"
    ensures CreateInsertionPattern(DefaultInsertionPattern, "$&") == "<($&)"
  {
    assert DefaultInsertionPattern == "<(" + "$" + ")";
    FirstDollarAt("<(", ")");
    var rep := "$&";
    assert rep[0] == '$' && rep[1] == '&' && rep[2..] == "";
    assert Expand(rep, DefaultInsertionPattern, 2, "$") == "$";
    DefaultInsertionPatternWraps("$&");
  }

  /** With a separator-free extension, a file below the template directory ends
      with the extension exactly when its relative path does. */
  lemma ExtensionOnRelativePath(templateDirectory: Path, file: Path, extension: string)
    requires Under(file, templateDirectory)
    requires Separator !in extension
    ensures EndsWith(Render(file), extension) <==> EndsWith(Relative(templateDirectory, file), extension)
  {
    RenderUnder(templateDirectory, file);
    var head := if |templateDirectory| == 0 then "" else Render(templateDirectory);
    EndsWithPastSeparator(head, Separator, Relative(templateDirectory, file), extension);
  }

  /** The target path with the stripped extension put back, resolved against the
      template directory, is the source file itself. */
  lemma TargetLocatesSource(templateDirectory: Path, extension: string, file: Path)
    requires Normal(templateDirectory) && Normal(file) && Under(file, templateDirectory)
    requires Separator !in extension
    ensures var f := ClassifyFile(templateDirectory, extension, file);
      Resolve(templateDirectory, f.targetPath + (if f.action == CopyInserted then extension else "")) == file
  {
    ExtensionOnRelativePath(templateDirectory, file, extension);
    ResolveRelative(templateDirectory, file);
    var f := ClassifyFile(templateDirectory, extension, file);
    if f.action == Copy {
      assert f.targetPath + "" == f.targetPath;
    }
  }

  /** Every file a template lists below its template directory is found again
      by resolving its target path (plus the input extension for an input
      file) against that directory. */
  lemma NewTemplateLocatesSources(args: TemplateArgs, files: seq<Path>, canExecuteBash: bool, canExecuteBatch: bool, cwd: Path)
    requires Normal(cwd)
    requires Separator !in args.inputFileExtension.GetOr(DefaultInputFileExtension)
    requires forall i :: 0 <= i < |files| ==>
      Normal(files[i]) && Under(files[i], Resolve(cwd, args.directory.GetOr(".")) + [TemplateSubdirectory])
    ensures var t := NewTemplate(args, files, canExecuteBash, canExecuteBatch, cwd);
      var extension := args.inputFileExtension.GetOr(DefaultInputFileExtension);
      forall i :: 0 <= i < |files| ==>
        Resolve(t.templateDirectory, t.files[i].targetPath + (if t.files[i].action == CopyInserted then extension else ""))
          == files[i]
  {
    var t := NewTemplate(args, files, canExecuteBash, canExecuteBatch, cwd);
    var extension := args.inputFileExtension.GetOr(DefaultInputFileExtension);
    forall i | 0 <= i < |files|
      ensures Resolve(t.templateDirectory, t.files[i].targetPath + (if t.files[i].action == CopyInserted then extension else ""))
        == files[i]
    {
      TargetLocatesSource(t.templateDirectory, extension, files[i]);
    }
  }

  /** Unless bash scripts are prioritized, a template able to run both kinds
      of script tries the batch script first. */
  lemma BatchFirstByDefault(args: TemplateArgs, files: seq<Path>, cwd: Path)
    requires args.prioritizeBashScripts != Some(true)
    ensures NewTemplate(args, files, true, true, cwd).shells == [Batch, Bash]
  {
  }

  /** A target path is relative, never absolute. */
  lemma TargetIsRelative(templateDirectory: Path, extension: string, file: Path)
    requires Normal(file)
    ensures !IsAbsolute(ClassifyFile(templateDirectory, extension, file).targetPath)
  {
    RelativeIsRelative(templateDirectory, file);
    var rel := Relative(templateDirectory, file);
    var target := ClassifyFile(templateDirectory, extension, file).targetPath;
    assert target == rel || (|target| <= |rel| && target == rel[..|target|]);
    if |target| > 0 {
      assert target[0] == rel[0];
    }
  }

  /** With an empty input extension every file is an input file whose target
      path is its relative path, unchanged. */
  lemma EmptyExtensionInsertsAll(templateDirectory: Path, file: Path)
    ensures ClassifyFile(templateDirectory, "", file).action == CopyInserted
    ensures ClassifyFile(templateDirectory, "", file).targetPath == Relative(templateDirectory, file)
  {
    assert Render(file)[|Render(file)|..] == "";
  }
}

=== FILE: text.dfy ===
/** String operations of the JavaScript runtime that the scaffolding code relies
    on: `startsWith`, `endsWith`, `indexOf`, `slice`, `split`/`join`, and
    `replace`/`replaceAll` with a string search value. */
module Text {
  import opened Wrappers

  predicate StartsWith(s: string, prefix: string) {
    |prefix| <= |s| && s[..|prefix|] == prefix
  }

  predicate EndsWith(s: string, suffix: string) {
    |suffix| <= |s| && s[|s| - |suffix|..] == suffix
  }

  /** `pat` occurs in `s` starting at index `i`. */
  predicate OccursAt(s: string, pat: string, i: nat) {
    i + |pat| <= |s| && s[i..i + |pat|] == pat
  }

  predicate Occurs(s: string, pat: string) {
    exists i :: 0 <= i <= |s| && OccursAt(s, pat, i)
  }

  /** `s.indexOf(pat, from)`: the first index at or after `from` where `pat` occurs. */
  function IndexOf(s: string, pat: string, from: nat): (r: Option<nat>)
    requires from <= |s|
    ensures r.Some? ==> from <= r.value && OccursAt(s, pat, r.value)
    ensures r.Some? ==> forall j :: from <= j < r.value ==> !OccursAt(s, pat, j)
    ensures r.None? ==> forall j :: from <= j ==> !OccursAt(s, pat, j)
    decreases |s| - from
  {
    if OccursAt(s, pat, from) then Some(from)
    else if from == |s| then None
    else IndexOf(s, pat, from + 1)
  }

  /** `s.slice(0, end)`: a negative `end` counts back from the end of `s`. */
  function SliceTo(s: string, end: int): string {
    if end < 0 then (if |s| + end < 0 then "" else s[..|s| + end])
    else if end > |s| then s
    else s[..end]
  }

  /** `pieces.join(sep)`. */
  function JoinWith(pieces: seq<string>, sep: string): string
    decreases |pieces|
  {
    if |pieces| == 0 then ""
    else if |pieces| == 1 then pieces[0]
    else pieces[0] + sep + JoinWith(pieces[1..], sep)
  }

  /** `s.split(pat)` for a non-empty `pat`: the text between successive
      leftmost occurrences of `pat`. */
  function SplitOn(s: string, pat: string): (pieces: seq<string>)
    requires |pat| > 0
    ensures |pieces| >= 1
    decreases |s|
  {
    var r := IndexOf(s, pat, 0);
    if r.None? then [s]
    else [s[..r.value]] + SplitOn(s[r.value + |pat|..], pat)
  }

  /** `s.replaceAll(pat, rep)` with `rep` inserted literally. An empty `pat`
      matches before every character and once more at the end. */
  function ReplaceAll(s: string, pat: string, rep: string): string {
    if |pat| == 0 then InsertAround(s, rep) else ReplaceOccurrences(s, pat, rep)
  }

  /** Replacement of the leftmost occurrences of a non-empty `pat`. */
  function ReplaceOccurrences(s: string, pat: string, rep: string): string
    requires |pat| > 0
    decreases |s|
  {
    var r := IndexOf(s, pat, 0);
    if r.None? then s
    else s[..r.value] + rep + ReplaceOccurrences(s[r.value + |pat|..], pat, rep)
  }

  /** Replacement of the empty search value: `rep` before every character and at the end. */
  function InsertAround(s: string, rep: string): string
    decreases |s|
  {
    if |s| == 0 then rep else rep + [s[0]] + InsertAround(s[1..], rep)
  }

  /** The replacement-pattern expansion (GetSubstitution) that JavaScript's
      `replace` and `replaceAll` apply to a string replacement: `$$`, `$&`,
      `` $` `` and `$'` stand for a dollar sign, the matched text, the text
      before the match and the text after it; every other character is kept. */
  function Expand(rep: string, s: string, pos: nat, matched: string): string
    requires pos + |matched| <= |s|
    decreases |rep|
  {
    if |rep| == 0 then ""
    else if rep[0] == '$' && |rep| >= 2 && rep[1] == '$' then "$" + Expand(rep[2..], s, pos, matched)
    else if rep[0] == '$' && |rep| >= 2 && rep[1] == '&' then matched + Expand(rep[2..], s, pos, matched)
    else if rep[0] == '$' && |rep| >= 2 && rep[1] == '`' then s[..pos] + Expand(rep[2..], s, pos, matched)
    else if rep[0] == '$' && |rep| >= 2 && rep[1] == '\'' then s[pos + |matched|..] + Expand(rep[2..], s, pos, matched)
    else [rep[0]] + Expand(rep[1..], s, pos, matched)
  }

  /** The first occurrence of `pat` replaced by `rep`, inserted literally. */
  function ReplaceFirst(s: string, pat: string, rep: string): string {
    match IndexOf(s, pat, 0)
    case None => s
    case Some(p) => s[..p] + rep + s[p + |pat|..]
  }

  /** `s.replace(pat, rep)` with a string `pat`: only the first occurrence is
      replaced, by the expansion of `rep`. */
  function ReplaceFirstJs(s: string, pat: string, rep: string): string {
    match IndexOf(s, pat, 0)
    case None => s
    case Some(p) => s[..p] + Expand(rep, s, p, pat) + s[p + |pat|..]
  }

  /** `s.replaceAll(pat, rep)` exactly as JavaScript evaluates it for a string
      `pat` and a string `rep`: every occurrence, scanned left to right in the
      original text, is replaced by the expansion of `rep` at that position. */
  function ReplaceAllJs(s: string, pat: string, rep: string): string {
    ReplaceAllJsFrom(s, pat, rep, 0)
  }

  function ReplaceAllJsFrom(s: string, pat: string, rep: string, from: nat): string
    requires from <= |s|
    decreases |s| - from
  {
    match IndexOf(s, pat, from)
    case None => s[from..]
    case Some(p) =>
      if |pat| > 0 then s[from..p] + Expand(rep, s, p, pat) + ReplaceAllJsFrom(s, pat, rep, p + |pat|)
      else if p < |s| then s[from..p] + Expand(rep, s, p, pat) + [s[p]] + ReplaceAllJsFrom(s, pat, rep, p + 1)
      else s[from..p] + Expand(rep, s, p, pat)
  }

  // ---------------------------------------------------------------------------
  // Lemmas

  /** The first occurrence found by `IndexOf` is the one at `i` when `pat`
      occurs at `i` and nowhere between `from` and `i`. */
  lemma IndexOfIs(s: string, pat: string, from: nat, i: nat)
    requires from <= i && OccursAt(s, pat, i)
    requires forall j :: from <= j < i ==> !OccursAt(s, pat, j)
    ensures from <= |s| && IndexOf(s, pat, from) == Some(i)
  {
  }

  /** Splitting and re-joining with the same separator gives the text back. */
  lemma {:induction false} SplitOnJoin(s: string, pat: string)
    requires |pat| > 0
    ensures JoinWith(SplitOn(s, pat), pat) == s
    decreases |s|
  {
    var r := IndexOf(s, pat, 0);
    if r.Some? {
      var p := r.value;
      var rest := s[p + |pat|..];
      SplitOnJoin(rest, pat);
      SplitOnStep(s, pat);
      JoinWithCons(s[..p], SplitOn(rest, pat), pat);
      AroundOccurrence(s, pat, p);
    }
  }

  /** `SplitOn` cuts at the leftmost occurrence and goes on after it. */
  lemma SplitOnStep(s: string, pat: string)
    requires |pat| > 0 && IndexOf(s, pat, 0).Some?
    ensures SplitOn(s, pat)
      == [s[..IndexOf(s, pat, 0).value]] + SplitOn(s[IndexOf(s, pat, 0).value + |pat|..], pat)
  {
  }

  lemma JoinWithCons(head: string, tail: seq<string>, sep: string)
    requires |tail| >= 1
    ensures JoinWith([head] + tail, sep) == head + sep + JoinWith(tail, sep)
  {
    assert ([head] + tail)[1..] == tail;
  }

  /** A text is what precedes an occurrence, the occurrence, and what follows. */
  lemma AroundOccurrence(s: string, pat: string, p: nat)
    requires OccursAt(s, pat, p)
    ensures s == s[..p] + pat + s[p + |pat|..]
  {
    assert s == s[..p] + s[p..p + |pat|] + s[p + |pat|..];
  }

  /** No piece produced by `SplitOn` contains the separator. */
  lemma {:induction false} SplitOnPiecesFree(s: string, pat: string)
    requires |pat| > 0
    ensures forall k :: 0 <= k < |SplitOn(s, pat)| ==> !Occurs(SplitOn(s, pat)[k], pat)
    decreases |s|
  {
    var pieces := SplitOn(s, pat);
    match IndexOf(s, pat, 0)
    case None =>
      assert pieces == [s];
    case Some(p) =>
      var rest := s[p + |pat|..];
      SplitOnPiecesFree(rest, pat);
      assert pieces == [s[..p]] + SplitOn(rest, pat);
      forall i | 0 <= i <= p
        ensures !OccursAt(s[..p], pat, i)
      {
        if i + |pat| <= p {
          assert !OccursAt(s, pat, i);
          assert s[..p][i..i + |pat|] == s[i..i + |pat|];
        }
      }
      forall k | 0 <= k < |pieces|
        ensures !Occurs(pieces[k], pat)
      {
        if k > 0 {
          assert pieces[k] == SplitOn(rest, pat)[k - 1];
        }
      }
  }

  /** `replaceAll` with a non-empty search value is `split` followed by `join`. */
  lemma {:induction false} ReplaceAllIsSplitJoin(s: string, pat: string, rep: string)
    requires |pat| > 0
    ensures ReplaceAll(s, pat, rep) == JoinWith(SplitOn(s, pat), rep)
    decreases |s|
  {
    var r := IndexOf(s, pat, 0);
    if r.Some? {
      var p := r.value;
      var rest := s[p + |pat|..];
      ReplaceAllIsSplitJoin(rest, pat, rep);
      var tail := SplitOn(rest, pat);
      var pieces := [s[..p]] + tail;
      assert SplitOn(s, pat) == pieces;
      assert pieces[1..] == tail;
      assert JoinWith(pieces, rep) == s[..p] + rep + JoinWith(tail, rep);
    }
  }

  /** Replacing every occurrence of a search value by itself changes nothing. */
  lemma ReplaceAllSelf(s: string, pat: string)
    requires |pat| > 0
    ensures ReplaceAll(s, pat, pat) == s
  {
    ReplaceAllIsSplitJoin(s, pat, pat);
    SplitOnJoin(s, pat);
  }

  /** A text without any occurrence of the search value is left unchanged. */
  lemma ReplaceAllAbsent(s: string, pat: string, rep: string)
    requires |pat| > 0 && !Occurs(s, pat)
    ensures ReplaceAll(s, pat, rep) == s
  {
  }

  /** Joining texts without the character `c` by a separator without `c`
      yields a text without `c`. */
  lemma {:induction false} JoinWithAvoids(pieces: seq<string>, sep: string, c: char)
    requires forall k :: 0 <= k < |pieces| ==> c !in pieces[k]
    requires c !in sep
    ensures c !in JoinWith(pieces, sep)
    decreases |pieces|
  {
    if |pieces| > 1 {
      JoinWithAvoids(pieces[1..], sep, c);
    }
  }

  /** No piece of a split on the single character `c` contains `c`. */
  lemma SplitOnCharFree(s: string, c: char)
    ensures forall k :: 0 <= k < |SplitOn(s, [c])| ==> c !in SplitOn(s, [c])[k]
  {
    SplitOnPiecesFree(s, [c]);
    var pieces := SplitOn(s, [c]);
    forall k | 0 <= k < |pieces|
      ensures c !in pieces[k]
    {
      if c in pieces[k] {
        var i :| 0 <= i < |pieces[k]| && pieces[k][i] == c;
        assert OccursAt(pieces[k], [c], i);
      }
    }
  }

  /** After replacing every `c` by a text without `c`, no `c` is left. */
  lemma ReplaceCharRemoves(s: string, c: char, rep: string)
    requires c !in rep
    ensures c !in ReplaceAll(s, [c], rep)
  {
    ReplaceAllIsSplitJoin(s, [c], rep);
    SplitOnCharFree(s, c);
    JoinWithAvoids(SplitOn(s, [c]), rep, c);
  }

  /** A non-empty text that does not begin with `sep` lies at the front of any
      join it begins. */
  lemma JoinWithFirst(pieces: seq<string>, sep: string)
    requires |pieces| >= 1
    ensures StartsWith(JoinWith(pieces, sep), pieces[0])
  {
  }

  /** Joining two non-empty lists is joining each and putting the separator between. */
  lemma {:induction false} JoinWithAppend(a: seq<string>, b: seq<string>, sep: string)
    requires |a| >= 1 && |b| >= 1
    ensures JoinWith(a + b, sep) == JoinWith(a, sep) + sep + JoinWith(b, sep)
    decreases |a|
  {
    if |a| > 1 {
      assert (a + b)[1..] == a[1..] + b;
      JoinWithAppend(a[1..], b, sep);
    }
  }

  /** Splitting on a single character inverts joining on it, provided no piece
      contains that character. */
  lemma {:induction false} SplitJoinChar(pieces: seq<string>, c: char)
    requires |pieces| >= 1
    requires forall k :: 0 <= k < |pieces| ==> c !in pieces[k]
    ensures SplitOn(JoinWith(pieces, [c]), [c]) == pieces
    decreases |pieces|
  {
    var s := JoinWith(pieces, [c]);
    var a := pieces[0];
    forall j | 0 <= j < |a|
      ensures !OccursAt(s, [c], j)
    {
      JoinWithFirst(pieces, [c]);
      assert s[j] == a[j];
    }
    if |pieces| == 1 {
      assert s == a;
    } else {
      var rest := JoinWith(pieces[1..], [c]);
      assert s == a + [c] + rest;
      assert OccursAt(s, [c], |a|);
      IndexOfIs(s, [c], 0, |a|);
      assert s[|a| + 1..] == rest;
      assert s[..|a|] == a;
      SplitJoinChar(pieces[1..], c);
      assert SplitOn(s, [c]) == [a] + SplitOn(rest, [c]);
      assert pieces == [a] + pieces[1..];
    }
  }

  /** A replacement without `$` is inserted by `Expand` unchanged. */
  lemma {:induction false} ExpandPlain(rep: string, s: string, pos: nat, matched: string)
    requires pos + |matched| <= |s|
    requires '$' !in rep
    ensures Expand(rep, s, pos, matched) == rep
    decreases |rep|
  {
    if |rep| > 0 {
      ExpandPlain(rep[1..], s, pos, matched);
    }
  }

  /** A suffix without the character `c` is a suffix of `head + [c] + tail`
      exactly when it is a suffix of `tail`. */
  lemma EndsWithPastSeparator(head: string, c: char, tail: string, suffix: string)
    requires c !in suffix
    ensures EndsWith(head + [c] + tail, suffix) <==> EndsWith(tail, suffix)
  {
    var full := head + [c] + tail;
    if |tail| < |suffix| <= |full| {
      var k := |head|;
      var start := |full| - |suffix|;
      assert full[k] == c;
      assert full[start..][k - start] == full[k];
    }
    if EndsWith(tail, suffix) {
      assert full[|full| - |suffix|..] == tail[|tail| - |suffix|..];
    }
  }
}

=== FILE: wrappers.dfy ===
/** Failure-compatible wrappers used across the model: an optional value and a
    success-or-error result, both usable with `:-`. */
module Wrappers {

  datatype Option<+T> = None | Some(value: T) {

    predicate IsFailure() {
      None?
    }

    function PropagateFailure<U>(): Option<U>
      requires None?
    {
      None
    }

    function Extract(): T
      requires Some?
    {
      value
    }

    /** The `??` operator of the source: the value when present, else `default`. */
    function GetOr(default: T): T {
      match this
      case Some(v) => v
      case None => default
    }
  }

  datatype Result<+T, +E> = Success(value: T) | Failure(error: E) {

    predicate IsFailure() {
      Failure?
    }

    function PropagateFailure<U>(): Result<U, E>
      requires Failure?
    {
      Failure(error)
    }

    function Extract(): T
      requires Success?
    {
      value
    }
  }
}
